=== FILE: README.md ===
# guidata data items and distribution helpers, in Dafny

This project models the typed field descriptors of guidata, a Python 2 library
in which each field of a data set is declared once as a descriptor ("data
item") that carries a type, a default, validation rules and display
properties. It also models three small pure helpers of guidata's
distribution-building module.

What is modelled:

- **Integer items** (`NumericItems`):
  - `check_value`: type test, non-zero test, bounds and parity;
  - `from_string`: the regular-expression gate in front of evaluation, with the evaluator as a parameter;
  - `get_auto_help`: the generated help text, proved to decode back to the item's constraints.
- **String and path items** (`StringItems`): `check_value` of `StringItem`, `FileSaveItem`, `FileOpenItem`, `FilesOpenItem` and `DirectoryItem`. The file system is a snapshot map from path to entry kind.
- **Choice items** (`ChoiceItems`):
  - normalisation of the `choices` argument of `ChoiceItem` and `ImageChoiceItem` into (key, label, icon) triples;
  - the `FirstChoice` default;
  - per-instance choice functions;
  - `MultipleChoiceItem`'s layout calls and its boolean-mask `serialize`/`deserialize`, with the round trip proved.
- **Button items** (`ButtonItems`) and **persistence of a record** (`RecordProtocol`): fields written in order to one stream and read back in order. A button writes nothing and keeps its value.
- **Distribution helpers** (`DistHelpers`):
  - `strip_version`, over a model of `str.split` that is proved to round-trip with `str.join`;
  - `to_include_files`, with POSIX `join` and `basename`;
  - the `Distribution.target_dir` property.

Supporting modules:

- `Values`: the Python 2 objects the descriptors see (`None`, `bool`, `int`, `long`, strings, tuples, lists), Python `==`, truthiness, iteration, and exceptions as `Raise`.
- `Text`: substring, prefix and suffix tests.
- `Decimal`: `str()` of an integer and its inverse.
- `DoubleRounding`: conversion of an integer to an IEEE 754 double.
- `Streams`: the writer/reader pair used by serialisation.

The model follows the code on these points:

- **Integer type test.** It is `isinstance(value, int)`, so `True` and `False` pass as 1 and 0. A Python 2 `long` fails it. It is not an exact type match.
- **`from_string` pattern.** The pattern ends in `$`, which also matches just before a final newline, so `"12\n"` reaches the evaluator.
- **Parity test.** `value//2 == value/2.` is computed through a double, so it is not "divisible by two" for every integer. `CheckIntAsWritten` models the test as written. `CheckInt` is the corrected check with an exact parity test, and the rest of the model uses it (see Findings).
- **Multiple-choice value.** The deserialised value is a list in choice order, not a set.

## Model

| member | source | states |
|---|---|---|
| NumericItems.CheckNumber | guidata/dataset/dataitems.py:51-65 | accepts exactly the `int` instances (bools included, longs not) that are non-zero when `nonzero` is set and lie within the optional min and max |
| NumericItems.NonzeroRejectsZero | guidata/dataset/dataitems.py:55-56 | with `nonzero` set, 0 and `False` fail whatever the bounds |
| NumericItems.CheckInt | guidata/dataset/dataitems.py:122-132 | the corrected check: accepts exactly what the numeric check accepts that also has the required parity: even for `even=True`, odd for `even=False`, either for `None` |
| NumericItems.CheckIntAsWritten | guidata/dataset/dataitems.py:122-132 | the check as written: accepts exactly what the numeric check accepts whose parity, as judged by comparing the floored half with the half of the integer's double, matches `even` |
| NumericItems.HalvesAgreeIffEven | guidata/dataset/dataitems.py:129 | in exact arithmetic, floor(n/2) equals n/2 iff n is even |
| NumericItems.AsWrittenAgreesBelowExactLimit | guidata/dataset/dataitems.py:129-131 | the check with the parity test computed through a double agrees with the exact check for every value below 2^53 in magnitude |
| NumericItems.AsWrittenMisjudgesParity | guidata/dataset/dataitems.py:129-131 | 2^53+1 is odd, yet the double-based test calls it even: an odd-only item rejects it while the exact check accepts it, and an even-only item accepts it |
| DoubleRounding.SmallIntegersExact | guidata/dataset/dataitems.py:129 | an integer below 2^53 in magnitude converts to a double exactly |
| DoubleRounding.FirstInexactInteger | guidata/dataset/dataitems.py:129 | 2^53+1 converts to the double 2^53 (round half to even) |
| NumericItems.MatchesGate | guidata/dataset/dataitems.py:71 | the pattern accepts exactly the non-empty strings of digits, `( ) + / - * .` and `e`, optionally followed by a single final newline |
| NumericItems.FromString | guidata/dataset/dataitems.py:67-76 | for text already converted to `unicode`: the evaluator's result exactly when the pattern matches, including a text of pattern characters followed by one final newline; no value for the empty text or for any character outside the pattern other than that newline; a value is always the evaluator's result |
| NumericItems.GateAndNewlines | guidata/dataset/dataitems.py:71 | `"\n"` and `"1\n\n"` fail the pattern, and `"12\n"` passes it |
| Decimal.IntTextRoundTrip | guidata/dataset/dataitems.py:42-46 | the decimal text the help prints for a bound parses back to that bound |
| NumericItems.AutoHelp | guidata/dataset/dataitems.py:111-120 | the help starts with "integer"; it ends with ", even" or ", odd" when a parity is required, with ", non zero" when only non-zero is required, and is just "integer" for an unconstrained item |
| NumericItems.AutoHelpDecodes | guidata/dataset/dataitems.py:35-49 | the help text ("integer", then the range phrase, the non-zero phrase and the parity phrase) decodes back to exactly the item's min, max, nonzero and parity |
| NumericItems.AutoHelpInjective | guidata/dataset/dataitems.py:111-120 | two integer items with the same help text have the same constraints |
| StringItems.CheckString | guidata/dataset/dataitems.py:149-154 | false iff `notempty` is set and the value is falsy; no type test, so a non-empty string is accepted and the empty one rejected |
| StringItems.CheckFileSave | guidata/dataset/dataitems.py:241-245 | accepts exactly the non-empty strings |
| StringItems.CheckFileOpen | guidata/dataset/dataitems.py:261-265 | accepts exactly the strings naming an existing regular file |
| StringItems.CheckDirectory | guidata/dataset/dataitems.py:311-315 | accepts exactly the strings naming an existing directory |
| StringItems.OpenFileAndDirectoryExclusive | guidata/dataset/dataitems.py:311-315 | no value passes both the file-open and the directory check |
| StringItems.CheckFilesOpen | guidata/dataset/dataitems.py:286-292 | true iff every element iterated from the value names an existing file (so the empty list passes); a non-iterable value raises `TypeError`, and so does a non-string element reached while every earlier one was a file |
| Values.Iterate | guidata/dataset/dataitems.py:289 | lists and tuples yield their elements, a string yields its one-character strings, and anything else raises `TypeError` |
| ChoiceItems.NormalizeChoice | guidata/dataset/dataitems.py:346-355 | one entry normalises iff it has an accepted shape (for the plain variant a non-tuple or a pair; for the image variant, lines 433-443, a pair or a triple), to the triple that shape gives at its position; otherwise `ValueError` for a tuple and `AssertionError` for a non-tuple |
| ChoiceItems.NormalizeFrom | guidata/dataset/dataitems.py:336-338 | the enumeration loop succeeds iff every entry normalises, keeps length and order, and otherwise raises the error of the first entry that fails |
| ChoiceItems.NormalizeChoices | guidata/dataset/dataitems.py:346-355 | a non-tuple entry at index i becomes (i, entry, None) and a pair (k, l) becomes (k, l, None); any other tuple raises `ValueError`; for the image variant a triple is kept, a pair (l, img) becomes (i, l, img), a non-tuple raises `AssertionError` and a wrong-length tuple raises `ValueError` |
| ChoiceItems.ImageListNormalization | guidata/dataset/dataitems.py:433-443 | a (key, label, image) triple is kept, a (label, image) pair is keyed by its position, and a bare label fails the assertion |
| ChoiceItems.LabelListNormalization | guidata/dataset/dataitems.py:346-355 | a list of two labels becomes [(0, label, None), (1, label, None)] |
| ChoiceItems.NewChoiceItem | guidata/dataset/dataitems.py:332-344 | a callable stays a per-instance choice function and `FirstChoice` gives the default `None`; a static list is normalised, an explicit default is kept, and `FirstChoice` over an empty list raises `IndexError` |
| ChoiceItems.FirstChoiceIsFirstKey | guidata/dataset/dataitems.py:339-340 | with `FirstChoice` and a non-empty static list, the default is the first entry's key: its own key if it gives one, otherwise 0 |
| ChoiceItems.DefaultExamples | guidata/dataset/dataitems.py:339-342 | `[("a", "Alpha"), ("b", "Beta")]` defaults to `"a"`, and a callable defaults to `None` |
| ChoiceItems.NewMultipleChoiceItem | guidata/dataset/dataitems.py:373-375 | a plain choice item with default `()` laid out as shape (1, -1) |
| ChoiceItems.Horizontal | guidata/dataset/dataitems.py:377-385 | sets the shape to (rows, -1) and changes nothing else |
| ChoiceItems.Vertical | guidata/dataset/dataitems.py:387-395 | sets the shape to (-1, columns) and changes nothing else |
| ChoiceItems.LastLayoutWins | guidata/dataset/dataitems.py:377-395 | of several layout calls only the last one counts, and a call repeated changes nothing |
| ChoiceItems.Resolve | guidata/dataset/dataitems.py:402 | a static list is used as given whatever the instance; a choice function is called on the instance at hand, so writing and reading can see different choices |
| ChoiceItems.Contains | guidata/dataset/dataitems.py:404 | `key in value` is `==`-membership for lists and tuples and substring for strings, and raises `TypeError` on anything else |
| ChoiceItems.EncodeFlags | guidata/dataset/dataitems.py:401-404 | one flag per resolved choice, in choice order: flag i is `choices[i].key in value`; succeeds iff every such test succeeds, otherwise raises `TypeError`; for a list or tuple it always succeeds with `==`-membership; with no choices the value is never examined |
| ChoiceItems.DecodeFlags | guidata/dataset/dataitems.py:414-417 | succeeds iff every truthy flag has a choice at its position, otherwise raises `IndexError`; collects exactly the keys at truthy positions |
| ChoiceItems.DecodedKeys | guidata/dataset/dataitems.py:414-417 | the decoded list has one key per truthy flag and, in flag order, the j-th key is that of the choice at the j-th truthy position |
| ChoiceItems.Serialize | guidata/dataset/dataitems.py:397-405 | keeps the earlier output and appends exactly one sequence token whose i-th item is `choices[i].key in value`; succeeds iff every membership test succeeds, otherwise raises `TypeError` |
| ChoiceItems.Deserialize | guidata/dataset/dataitems.py:407-418 | succeeds iff the stream starts with a sequence token and every truthy flag in it has a choice at its position; otherwise raises the reader's error or `IndexError`; consumes exactly that token and yields the list of keys at the truthy positions, in flag order |
| ChoiceItems.RoundTrip | guidata/dataset/dataitems.py:397-418 | when the choices resolve the same at both ends, serialising a list or tuple selection and deserialising gives the selected keys in choice order and leaves the rest of the stream unread |
| ChoiceItems.SelectionReproduced | guidata/dataset/dataitems.py:397-418 | a selection of distinct keys listed in choice order comes back exactly |
| ChoiceItems.EmptySelection | guidata/dataset/dataitems.py:397-418 | the empty selection writes all-false flags and reads back as the empty list |
| ChoiceItems.FiveChoiceExample | guidata/dataset/dataitems.py:373-418 | over five labels keyed 0 to 4, selecting [1, 3] writes false, true, false, true, false and reads back [1, 3]; the empty selection reads back empty |
| Streams.ReadWhatWasWritten | guidata/dataset/dataitems.py:405-410 | reading a sequence back returns what was written and leaves what followed |
| ButtonItems.Serialize | guidata/dataset/dataitems.py:486-487 | a button writes nothing to the stream |
| ButtonItems.Deserialize | guidata/dataset/dataitems.py:489-490 | a button reads nothing and keeps its current value |
| RecordProtocol.FieldRoundTrip | guidata/dataset/dataitems.py:486-490 | a button writes nothing and keeps its current value; a multi-choice field comes back as its selected keys; either way the stream after the field is untouched |
| RecordProtocol.SerializeAppends | guidata/dataset/dataitems.py:405 | writing after earlier output keeps that output in front of what the fields write |
| RecordProtocol.RecordRoundTrip | guidata/dataset/dataitems.py:397-418 | a record of multi-choice and button fields is written without error and read back field by field, each field restored as its own round trip says |
| DistHelpers.Split | guidata/disthelpers.py:185-186 | at least one piece, no piece contains the separator, the first piece is a prefix with no occurrence of the separator starting inside it and is followed by one when there are several pieces, a string without the separator is its own single piece, and joining the pieces with the separator gives the string back |
| DistHelpers.CutAt | guidata/disthelpers.py:185-186 | `s.split(sep)[0]` is a prefix of `s`, free of `sep`, no occurrence of `sep` starts inside it, and it is `s` itself or is followed by `sep`: it ends at the first occurrence |
| DistHelpers.CutAtFirstOccurrence | guidata/disthelpers.py:185-186 | the cut is at the first occurrence even when occurrences overlap: `"1alphalpha"` cut at `"alpha"` is `"1"` |
| DistHelpers.StripVersion | guidata/disthelpers.py:182-186 | the result is a prefix of the version and contains none of `beta`, `alpha`, `rc`, `dev`; no marker of the version starts at any position inside the result, so the cut is at or before the earliest marker |
| DistHelpers.StripVersionCuts | guidata/disthelpers.py:182-186 | the result is a prefix of the version and contains none of `beta`, `alpha`, `rc`, `dev`; no marker of the version starts inside it; it is the whole version, or a marker starts right after it |
| DistHelpers.StripVersionEarliestMarker | guidata/disthelpers.py:182-186 | when a marker starts at position k and no marker starts before k, the result is exactly the text before k |
| DistHelpers.StripVersionExample | guidata/disthelpers.py:182-186 | `"1betalpha"` strips to `"1"`, the text before its earliest marker |
| DistHelpers.StripVersionKeepsPlainVersion | guidata/disthelpers.py:182-186 | a version with none of the four markers is returned unchanged |
| DistHelpers.StripVersionIdempotent | guidata/disthelpers.py:182-186 | stripping twice is stripping once |
| DistHelpers.Join | guidata/disthelpers.py:177 | an absolute second part replaces the first; otherwise the result starts with the directory and ends with the name |
| DistHelpers.Basename | guidata/disthelpers.py:177 | a '/'-free suffix of the path that is either the whole path or preceded by a '/' |
| DistHelpers.BasenameCharacterised | guidata/disthelpers.py:177 | those properties determine the basename uniquely |
| DistHelpers.JoinKeepsBasename | guidata/disthelpers.py:177 | the destination a source is copied to has the source's basename |
| DistHelpers.JoinStaysInDirectory | guidata/disthelpers.py:177 | the destination starts with the destination directory |
| DistHelpers.EntryPairs | guidata/disthelpers.py:176-178 | one pair per source of the entry, in order, each (src, join(dest_dir, basename(src))) |
| DistHelpers.FlattenAppend | guidata/disthelpers.py:174-179 | converting a concatenation of entry lists concatenates the results |
| DistHelpers.FlattenLength | guidata/disthelpers.py:174-179 | there is one pair per source name across all entries |
| DistHelpers.FlattenAt | guidata/disthelpers.py:174-179 | source j of entry i lands after all sources of earlier entries and the earlier sources of its own entry, paired with its destination |
| DistHelpers.ToIncludeFiles | guidata/disthelpers.py:162-179 | the nested loop yields exactly the reference flattening, with one pair per source name (none for empty input) |
| DistHelpers.NewDistribution | guidata/disthelpers.py:218-223 | a new distribution reports the target directory `'dist'` |
| DistHelpers.TargetDir | guidata/disthelpers.py:239-245 | never `None`: `'dist'` while unset, otherwise the stored value |
| DistHelpers.SetTargetDir | guidata/disthelpers.py:247-249 | after setting, the getter returns the value set, or `'dist'` if it was `None` |
| DistHelpers.LastSetWins | guidata/disthelpers.py:247-249 | of two settings only the last one matters |

## Left out

- `FloatItem` and float-valued bounds: floating-point values are not modelled. Only integer items are covered, and their help text prints bounds with the integer `str()`.
- The `sys.maxint` width of a Python 2 `int` is not modelled. An `Int` value is unbounded, and a `long` is a separate case that fails the type test.
- `str` and `unicode` are one string type. `utf8_to_unicode` and the translation function `_` are the identity.
- `NumericItems.FromString` takes text that is already `unicode`. In guidata, `unicode(value)` (guidata/dataset/dataitems.py:69) runs outside the `try`, so a Python 2 byte `str` holding a non-ASCII byte raises `UnicodeDecodeError` there instead of giving `None`. The model has one string type and does not model that error.
- `eval` in `from_string` is a parameter (`evaluate`) standing for `int(eval(text))`, with `None` where it raises. No claim is made about Python's `eval`.
- `StringItem.from_string`, `FileSaveItem.from_string` and `FilesOpenItem.from_string` are not modelled. They convert through `unicode`, `eval` and `add_extension`, and `add_extension` is not part of this model.
- `FileSaveItem.get_auto_help` is not modelled: it only formats the file-type filter for display.
- The `DataItem` base, `ItemProperty`, `get_prop`, `get_prop_value` and `__set__` are not part of this model. Properties are datatype fields, and the choice function is a function of the record instance.
- `BoolItem`, `DateItem` and `DateTimeItem` add no logic to the base. `ColorItem.check_value` depends on Qt colour parsing. `FloatArrayItem` holds numpy arrays for display only. The `DictItem` editor is a GUI dialog. None of these are modelled.
- The file system is a snapshot map. `os.path.exists` raising on a path with a NUL character is not modelled.
- `StringItems.CheckFilesOpen`: only the `TypeError` that `os.path.exists` raises on a non-string element is modelled. Any other error the file system calls could raise is not.
- `DistHelpers.Join` and `DistHelpers.Basename` follow POSIX `posixpath`; the Windows `ntpath` variant is not modelled.
- `DistHelpers.ToIncludeFiles` takes well-formed (directory, names) entries. The `ValueError` raised when an entry does not unpack into two parts is not modelled.
- `DistHelpers.StripVersion` takes a string. Calling it on a non-string raises in Python, and that case is not modelled.
- The record stream is one flat sequence of tokens, written and read in field order. The container's own writer and reader are not part of this model.
- `ChoiceItems.Resolve`: a choice function is total and returns well-formed (key, label, icon) triples. A choice function that raises, or one whose entries do not unpack into three parts (a `ValueError` at guidata/dataset/dataitems.py:403), is not modelled.
- `ChoiceItems.Horizontal` and `ChoiceItems.Vertical` return an updated copy of the item. In Python they change the shared descriptor in place through `set_prop` and return it, so a call whose result is dropped still changes the item there; the model has no such aliasing.
- `DistHelpers.Distribution` keeps only `_target_dir`. Everything else in the distribution module is subprocess, file-system, environment or build-tool work, and is not modelled.

## Findings

| source | as written | input that shows it | evidently intended | confidence | as-written member | corrected member |
|---|---|---|---|---|---|---|
| guidata/dataset/dataitems.py:129 | `is_even = value//2 == value/2.` converts the integer to a double before halving | 2^53+1 = 9007199254740993, an `int` on an LP64 Python 2 (64-bit Linux or macOS): its double is 2^53, so the test calls it even; `IntItem(even=False)` rejects it and `IntItem(even=True)` accepts it | an exact parity test (`value % 2 == 0`) | not executed | NumericItems.AsWrittenMisjudgesParity | NumericItems.CheckInt |

=== FILE: button_items.dfy ===
/** `ButtonItem` (and `DictItem`, a button whose callback opens an editor):
    an item whose value is handed to a callback and replaced by what the
    callback returns. It takes no part in persistence: `serialize` and
    `deserialize` do nothing. */
module ButtonItems {
  import opened Values
  import opened Streams

  /** The "display" properties: the callback, here a function of the record
      instance and the current value, and the icon. */
  datatype ButtonItem<!I> = ButtonItem(callback: (I, Value) -> Value, icon: Value)

  /** `ButtonItem.serialize`: writes nothing. */
  function Serialize<I>(item: ButtonItem<I>, instance: I, value: Value, out: seq<Token>): (r: seq<Token>)
    ensures r == out
  {
    out
  }

  /** `ButtonItem.deserialize`: reads nothing and leaves the value as it was. */
  function Deserialize<I>(item: ButtonItem<I>, instance: I, current: Value, input: seq<Token>): (r: (Value, seq<Token>))
    ensures r.0 == current && r.1 == input
  {
    (current, input)
  }
}

=== FILE: choice_items.dfy ===
/** The choice data items: `ChoiceItem`, its image variant `ImageChoiceItem`
    and its multi-select variant `MultipleChoiceItem`.

    Choices are normalised once, at declaration, into (key, label, icon)
    triples, unless the item was given a function of the record instance,
    which is resolved each time the choices are read. Labels pass through
    `utf8_to_unicode`, which is the identity here.
 */
module ChoiceItems {
  import opened Values
  import opened Streams
  import opened Text

  /** A normalised choice; `icon` is `NoneV` where the entry had none. */
  datatype Choice = Choice(key: Value, title: Value, icon: Value)

  /** The "choices" property: a normalised list fixed at declaration, or a
      function of the record instance (an `ItemProperty`). */
  datatype ChoiceSource<!I> = Static(entries: seq<Choice>) | Dynamic(resolver: I -> seq<Choice>)

  /** `get_prop_value("data", instance, "choices")`. */
  function Resolve<I>(src: ChoiceSource<I>, instance: I): (r: seq<Choice>)
    ensures src.Static? ==> r == src.entries
    ensures src.Dynamic? ==> r == src.resolver(instance)
  {
    match src
    case Static(cs) => cs
    case Dynamic(f) => f(instance)
  }

  /** Which `_normalize_choice` applies: `ChoiceItem`'s (also used by
      `MultipleChoiceItem`) or `ImageChoiceItem`'s. */
  datatype Flavour = Plain | WithImages

  /** `_normalize_choice(idx, entry)`. The plain flavour unpacks a tuple as
      (key, label) and keys anything else by its position; the image flavour
      asserts a tuple and takes (key, label, icon) or (label, icon). A tuple of
      the wrong length fails to unpack. */
  function NormalizeChoice(flavour: Flavour, idx: nat, entry: Value): (r: Result<Choice>)
    ensures r.Ok? <==> Normalizable(flavour, entry)
    ensures r.Ok? ==> r.value == Expected(flavour, idx, entry)
    ensures r.Raise? ==> r.error == (if entry.Tuple? then ValueError else AssertionError)
  {
    match flavour
    case Plain =>
      if entry.Tuple? then
        if |entry.items| == 2 then Ok(Choice(entry.items[0], entry.items[1], NoneV)) else Raise(ValueError)
      else Ok(Choice(Int(idx), entry, NoneV))
    case WithImages =>
      if !entry.Tuple? then Raise(AssertionError)
      else if |entry.items| == 3 then Ok(Choice(entry.items[0], entry.items[1], entry.items[2]))
      else if |entry.items| == 2 then Ok(Choice(Int(idx), entry.items[0], entry.items[1]))
      else Raise(ValueError)
  }

  /** The `for idx, choice in enumerate(choices)` loop of the constructor,
      from position `start` on; the first entry that fails stops it. */
  function NormalizeFrom(flavour: Flavour, entries: seq<Value>, start: nat): (r: Result<seq<Choice>>)
    requires start <= |entries|
    ensures r.Ok? <==> forall k :: start <= k < |entries| ==> NormalizeChoice(flavour, k, entries[k]).Ok?
    ensures r.Ok? ==>
              && |r.value| == |entries| - start
              && forall k :: start <= k < |entries| ==> NormalizeChoice(flavour, k, entries[k]) == Ok(r.value[k - start])
    ensures r.Raise? ==>
              exists k :: && start <= k < |entries|
                          && NormalizeChoice(flavour, k, entries[k]) == Raise(r.error)
                          && forall j :: start <= j < k ==> NormalizeChoice(flavour, j, entries[j]).Ok?
    decreases |entries| - start
  {
    if start == |entries| then Ok([])
    else
      var c :- NormalizeChoice(flavour, start, entries[start]);
      var rest :- NormalizeFrom(flavour, entries, start + 1);
      Ok([c] + rest)
  }

  /** Whether `_normalize_choice` accepts an entry, by its shape alone. */
  predicate Normalizable(flavour: Flavour, entry: Value) {
    match flavour
    case Plain => entry.Tuple? ==> |entry.items| == 2
    case WithImages => entry.Tuple? && (|entry.items| == 2 || |entry.items| == 3)
  }

  /** The normalised form of the entry at position `idx`, by its shape. */
  function Expected(flavour: Flavour, idx: nat, entry: Value): Choice
    requires Normalizable(flavour, entry)
  {
    if flavour.Plain? then
      if entry.Tuple? then Choice(entry.items[0], entry.items[1], NoneV) else Choice(Int(idx), entry, NoneV)
    else if |entry.items| == 3 then Choice(entry.items[0], entry.items[1], entry.items[2])
    else Choice(Int(idx), entry.items[0], entry.items[1])
  }

  /** The static choice list of a new item: same length and order as the
      entries, each entry normalised by its shape and position; any entry of
      the wrong shape makes the constructor raise. */
  function NormalizeChoices(flavour: Flavour, entries: seq<Value>): (r: Result<seq<Choice>>)
    ensures r.Ok? <==> forall k :: 0 <= k < |entries| ==> Normalizable(flavour, entries[k])
    ensures r.Ok? ==>
              && |r.value| == |entries|
              && forall k :: 0 <= k < |entries| ==> r.value[k] == Expected(flavour, k, entries[k])
    ensures flavour.Plain? && r.Raise? ==> r.error == ValueError
    ensures flavour.WithImages? && r.Raise? ==>
              exists k :: 0 <= k < |entries| && !Normalizable(flavour, entries[k])
                          && r.error == (if entries[k].Tuple? then ValueError else AssertionError)
  {
    NormalizeFrom(flavour, entries, 0)
  }

  /** A plain list of labels is keyed by position: `["X", "Y"]` becomes
      `[(0, "X", None), (1, "Y", None)]`. */
  lemma LabelListNormalization()
    ensures NormalizeChoices(Plain, [Str("X"), Str("Y")])
         == Ok([Choice(Int(0), Str("X"), NoneV), Choice(Int(1), Str("Y"), NoneV)])
  {
    var r := NormalizeChoices(Plain, [Str("X"), Str("Y")]);
    assert Normalizable(Plain, [Str("X"), Str("Y")][0]);
    assert Normalizable(Plain, [Str("X"), Str("Y")][1]);
    assert r.value[0] == Expected(Plain, 0, Str("X"));
    assert r.value[1] == Expected(Plain, 1, Str("Y"));
    assert r.value == [Choice(Int(0), Str("X"), NoneV), Choice(Int(1), Str("Y"), NoneV)];
  }

  /** The image variant keeps a (key, label, image) triple and keys a
      (label, image) pair by position; a bare label fails its assertion. */
  lemma ImageListNormalization(icon: Value)
    ensures NormalizeChoices(WithImages, [Tuple([Str("k"), Str("X"), icon]), Tuple([Str("Y"), icon])])
         == Ok([Choice(Str("k"), Str("X"), icon), Choice(Int(1), Str("Y"), icon)])
    ensures NormalizeChoices(WithImages, [Tuple([Str("Y"), icon]), Str("Z")]) == Raise(AssertionError)
  {
    var entries := [Tuple([Str("k"), Str("X"), icon]), Tuple([Str("Y"), icon])];
    var r := NormalizeChoices(WithImages, entries);
    assert Normalizable(WithImages, entries[0]);
    assert Normalizable(WithImages, entries[1]);
    assert r.value[0] == Expected(WithImages, 0, entries[0]);
    assert r.value[1] == Expected(WithImages, 1, entries[1]);
    assert r.value == [Choice(Str("k"), Str("X"), icon), Choice(Int(1), Str("Y"), icon)];
    var bad := [Tuple([Str("Y"), icon]), Str("Z")];
    assert !Normalizable(WithImages, bad[1]);
  }

  // ---------------------------------------------------------------------
  // Declaration and default

  /** The `choices` argument: a sequence of entries, or a callable. */
  datatype ChoicesArg<!I> = Listed(raw: seq<Value>) | Callable(f: I -> seq<Choice>)

  /** The `default` argument: the `FirstChoice` sentinel, or a value. */
  datatype DefaultArg = FirstChoice | Given(v: Value)

  datatype ChoiceItem<!I> = ChoiceItem(flavour: Flavour, choices: ChoiceSource<I>, default: Value)

  /** `ChoiceItem.__init__` (and `ImageChoiceItem`'s, which differs only in
      how entries are normalised). */
  function NewChoiceItem<I>(flavour: Flavour, choices: ChoicesArg<I>, default: DefaultArg): (r: Result<ChoiceItem<I>>)
    ensures choices.Callable? ==>
              && r.Ok? && r.value.choices.Dynamic? && r.value.choices.resolver == choices.f
              && r.value.default == (if default.FirstChoice? then NoneV else default.v)
    ensures choices.Listed? ==>
              (r.Ok? <==> NormalizeChoices(flavour, choices.raw).Ok? && !(default.FirstChoice? && |choices.raw| == 0))
    ensures choices.Listed? && r.Ok? ==>
              && r.value.choices == Static(NormalizeChoices(flavour, choices.raw).value)
              && (default.Given? ==> r.value.default == default.v)
    ensures choices.Listed? && default.FirstChoice? && |choices.raw| == 0 && NormalizeChoices(flavour, choices.raw).Ok? ==>
              r == Raise(IndexError)
    ensures r.Ok? ==> r.value.flavour == flavour
  {
    match choices
    case Callable(f) =>
      Ok(ChoiceItem(flavour, Dynamic(f), if default.FirstChoice? then NoneV else default.v))
    case Listed(raw) =>
      var cs :- NormalizeChoices(flavour, raw);
      if default.FirstChoice? then
        if |cs| == 0 then Raise(IndexError) else Ok(ChoiceItem(flavour, Static(cs), cs[0].key))
      else Ok(ChoiceItem(flavour, Static(cs), default.v))
  }

  /** With the `FirstChoice` sentinel and a static list, the default is the
      first entry's key: its own key when it gives one, else position 0. */
  lemma FirstChoiceIsFirstKey<I>(flavour: Flavour, raw: seq<Value>)
    requires |raw| > 0 && forall k :: 0 <= k < |raw| ==> Normalizable(flavour, raw[k])
    ensures var r := NewChoiceItem<I>(flavour, Listed(raw), FirstChoice);
            && r.Ok?
            && r.value.default == (if raw[0].Tuple? && (flavour.Plain? || |raw[0].items| == 3) then raw[0].items[0] else Int(0))
  {
  }

  /** `[("a", "Alpha"), ("b", "Beta")]` defaults to `"a"`; a callable list
      defaults to `None`. */
  lemma DefaultExamples<I>(f: I -> seq<Choice>)
    ensures NewChoiceItem<I>(Plain, Listed([Tuple([Str("a"), Str("Alpha")]), Tuple([Str("b"), Str("Beta")])]), FirstChoice)
              .value.default == Str("a")
    ensures NewChoiceItem<I>(Plain, Callable(f), FirstChoice).value.default == NoneV
  {
  }

  // ---------------------------------------------------------------------
  // MultipleChoiceItem

  /** The "display" shape: rows and columns of the check boxes, -1 meaning
      as many as needed. */
  datatype Shape = Shape(rows: int, cols: int)

  datatype MultipleChoiceItem<!I> = MultipleChoiceItem(base: ChoiceItem<I>, shape: Shape)

  /** `MultipleChoiceItem.__init__`: a plain choice item (default `()`),
      laid out on one row. */
  function NewMultipleChoiceItem<I>(choices: ChoicesArg<I>, default: DefaultArg := Given(Tuple([])))
    : (r: Result<MultipleChoiceItem<I>>)
    ensures r.Ok? <==> NewChoiceItem(Plain, choices, default).Ok?
    ensures r.Ok? ==> r.value.base == NewChoiceItem(Plain, choices, default).value && r.value.shape == Shape(1, -1)
  {
    var base :- NewChoiceItem(Plain, choices, default);
    Ok(MultipleChoiceItem(base, Shape(1, -1)))
  }

  /** `horizontal(row_nb)`: lay the boxes out on `rowNb` rows. */
  function Horizontal<I>(item: MultipleChoiceItem<I>, rowNb: int := 1): (r: MultipleChoiceItem<I>)
    ensures r.base == item.base && r.shape.rows == rowNb && r.shape.cols == -1
  {
    item.(shape := Shape(rowNb, -1))
  }

  /** `vertical(col_nb)`: lay the boxes out in `colNb` columns. */
  function Vertical<I>(item: MultipleChoiceItem<I>, colNb: int := 1): (r: MultipleChoiceItem<I>)
    ensures r.base == item.base && r.shape.rows == -1 && r.shape.cols == colNb
  {
    item.(shape := Shape(-1, colNb))
  }

  /** The layout calls only set the shape, so the last one decides it. */
  lemma LastLayoutWins<I>(item: MultipleChoiceItem<I>, n: int, m: int)
    ensures Vertical(Horizontal(item, n), m) == Vertical(item, m)
    ensures Horizontal(Vertical(item, m), n) == Horizontal(item, n)
    ensures Horizontal(Horizontal(item, n), n) == Horizontal(item, n)
  {
  }

  /** Python `key in value`: membership for a list or tuple, substring for a
      string (which needs a string key), `TypeError` otherwise. */
  function Contains(value: Value, key: Value): (r: Result<bool>)
    ensures value.List? ==> r == Ok(OccursIn(key, value.elems))
    ensures value.Tuple? ==> r == Ok(OccursIn(key, value.items))
    ensures r.Raise? <==> !(value.List? || value.Tuple? || (value.Str? && key.Str?))
    ensures r.Raise? ==> r.error == TypeError
    ensures value.Str? && key.Str? ==> r == Ok(Substring(key.s, value.s))
  {
    match value
    case List(xs) => Ok(OccursIn(key, xs))
    case Tuple(xs) => Ok(OccursIn(key, xs))
    case Str(s) =>
      if key.Str? then Ok(Substring(key.s, s))
      else Raise(TypeError)
    case _ => Raise(TypeError)
  }

  /** The elements of a list or tuple selection. */
  function Members(value: Value): seq<Value>
    requires value.List? || value.Tuple?
  {
    if value.List? then value.elems else value.items
  }

  /** The flags `serialize` writes: one per resolved choice, in order, true
      iff the choice's key is in the value. With no choices the value is
      never looked at. */
  function EncodeFlags(value: Value, choices: seq<Choice>): (r: Result<seq<bool>>)
    ensures |choices| == 0 ==> r == Ok([])
    ensures r.Ok? ==> |r.value| == |choices|
    ensures value.List? || value.Tuple? ==>
              && r.Ok?
              && forall i :: 0 <= i < |choices| ==> (r.value[i] <==> OccursIn(choices[i].key, Members(value)))
    ensures r.Ok? <==> forall i :: 0 <= i < |choices| ==> Contains(value, choices[i].key).Ok?
    ensures r.Ok? ==> forall i :: 0 <= i < |choices| ==> r.value[i] == Contains(value, choices[i].key).value
    ensures r.Raise? ==> r.error == TypeError
    decreases |choices|
  {
    if |choices| == 0 then Ok([])
    else
      var first :- Contains(value, choices[0].key);
      var rest :- EncodeFlags(value, choices[1..]);
      Ok([first] + rest)
  }

  /** `ps` lists, in increasing order and each once, exactly the indices
      from `start` on of the truthy flags. */
  predicate ListsTruthy(flags: seq<Value>, start: nat, ps: seq<nat>) {
    && (forall j :: 0 <= j < |ps| ==> start <= ps[j] < |flags| && Truthy(flags[ps[j]]))
    && (forall j, k :: 0 <= j < k < |ps| ==> ps[j] < ps[k])
    && (forall i :: start <= i < |flags| && Truthy(flags[i]) ==> i in ps)
  }

  /** The positions of the truthy flags from `start` on, in increasing order. */
  function TruthyPositions(flags: seq<Value>, start: nat): (r: seq<nat>)
    requires start <= |flags|
    ensures ListsTruthy(flags, start, r)
    decreases |flags| - start
  {
    if start == |flags| then []
    else
      var rest := TruthyPositions(flags, start + 1);
      if Truthy(flags[start]) then
        var r := [start] + rest;
        assert forall j :: 1 <= j < |r| ==> r[j] == rest[j - 1];
        r
      else rest
  }

  /** The keys `deserialize` collects: for each truthy flag, the key of the
      choice at that position, in flag order; a truthy flag with no choice
      at its position raises `IndexError` (falsy ones are never looked up). */
  function DecodeFlags(flags: seq<Value>, choices: seq<Choice>, idx: nat): (r: Result<seq<Value>>)
    ensures r.Ok? <==> forall i :: 0 <= i < |flags| && Truthy(flags[i]) ==> idx + i < |choices|
    ensures r.Raise? ==> r.error == IndexError
    ensures r.Ok? ==> forall x :: x in r.value ==>
              exists i :: 0 <= i < |flags| && Truthy(flags[i]) && idx + i < |choices| && choices[idx + i].key == x
    ensures r.Ok? ==> forall i :: 0 <= i < |flags| && Truthy(flags[i]) ==> choices[idx + i].key in r.value
    decreases |flags|
  {
    if |flags| == 0 then Ok([])
    else if Truthy(flags[0]) then
      if idx < |choices| then
        var rest :- DecodeFlags(flags[1..], choices, idx + 1);
        Ok([choices[idx].key] + rest)
      else Raise(IndexError)
    else DecodeFlags(flags[1..], choices, idx + 1)
  }

  function BoolValues(flags: seq<bool>): (r: seq<Value>)
    ensures |r| == |flags| && forall i :: 0 <= i < |flags| ==> r[i] == Bool(flags[i])
  {
    seq(|flags|, i requires 0 <= i < |flags| => Bool(flags[i]))
  }

  /** `MultipleChoiceItem.serialize`: writes one sequence of flags over the
      choices resolved for this instance. */
  function Serialize<I>(item: MultipleChoiceItem<I>, instance: I, value: Value, out: seq<Token>)
    : (r: Result<seq<Token>>)
    ensures var cs := Resolve(item.base.choices, instance);
            r.Ok? <==> forall i :: 0 <= i < |cs| ==> Contains(value, cs[i].key).Ok?
    ensures r.Raise? ==> r.error == TypeError
    ensures r.Ok? ==>
              var cs := Resolve(item.base.choices, instance);
              && |r.value| == |out| + 1
              && r.value[..|out|] == out
              && r.value[|out|].Sequence?
              && |r.value[|out|].items| == |cs|
              && forall i :: 0 <= i < |cs| ==> r.value[|out|].items[i] == Bool(Contains(value, cs[i].key).value)
    ensures r.Ok? <==> EncodeFlags(value, Resolve(item.base.choices, instance)).Ok?
    ensures r.Ok? ==> r.value == out + [Sequence(BoolValues(EncodeFlags(value, Resolve(item.base.choices, instance)).value))]
  {
    var flags :- EncodeFlags(value, Resolve(item.base.choices, instance));
    Ok(WriteSequence(out, BoolValues(flags)))
  }

  /** `MultipleChoiceItem.deserialize`: reads one sequence of flags and
      returns the new value (a list of keys) with the rest of the stream. */
  function Deserialize<I>(item: MultipleChoiceItem<I>, instance: I, input: seq<Token>)
    : (r: Result<(Value, seq<Token>)>)
    ensures r.Ok? ==> |input| > 0 && input[0].Sequence? && r.value.1 == input[1..] && r.value.0.List?
    ensures var cs := Resolve(item.base.choices, instance);
            r.Ok? <==>
              && |input| > 0 && input[0].Sequence?
              && forall i :: 0 <= i < |input[0].items| && Truthy(input[0].items[i]) ==> i < |cs|
    ensures r.Raise? ==> r.error == (if |input| > 0 && input[0].Sequence? then IndexError else ReadError)
    ensures r.Ok? ==>
              var cs := Resolve(item.base.choices, instance);
              var ps := TruthyPositions(input[0].items, 0);
              && |r.value.0.elems| == |ps|
              && forall j :: 0 <= j < |ps| ==> ps[j] < |cs| && r.value.0.elems[j] == cs[ps[j]].key
  {
    var read :- ReadSequence(input);
    var keys :- DecodeFlags(read.0, Resolve(item.base.choices, instance), 0);
    DecodedKeys(read.0, Resolve(item.base.choices, instance), 0);
    assert read.0[0..] == read.0;
    Ok((List(keys), read.1))
  }

  /** `keys[j]` is the key of the choice at position `ps[j]`, for every j. */
  predicate KeysAt(keys: seq<Value>, ps: seq<nat>, choices: seq<Choice>) {
    |keys| == |ps| && forall j :: 0 <= j < |ps| ==> ps[j] < |choices| && keys[j] == choices[ps[j]].key
  }

  lemma KeysAtCons(p: nat, ps: seq<nat>, keys: seq<Value>, choices: seq<Choice>)
    requires KeysAt(keys, ps, choices) && p < |choices|
    ensures KeysAt([choices[p].key] + keys, [p] + ps, choices)
  {
    var ks, qs := [choices[p].key] + keys, [p] + ps;
    forall j | 1 <= j < |qs| ensures qs[j] < |choices| && ks[j] == choices[qs[j]].key {
      assert qs[j] == ps[j - 1] && ks[j] == keys[j - 1];
    }
  }

  /** One step of `TruthyPositions`. */
  lemma TruthyStep(flags: seq<Value>, k: nat)
    requires k < |flags|
    ensures TruthyPositions(flags, k) ==
            (if Truthy(flags[k]) then [k] + TruthyPositions(flags, k + 1) else TruthyPositions(flags, k + 1))
  {
  }

  /** One step of `DecodeFlags` over the flags from `k` on. */
  lemma DecodeStep(flags: seq<Value>, choices: seq<Choice>, k: nat)
    requires k < |flags| && DecodeFlags(flags[k..], choices, k).Ok?
    ensures DecodeFlags(flags[k + 1..], choices, k + 1).Ok?
    ensures Truthy(flags[k]) ==> k < |choices|
    ensures DecodeFlags(flags[k..], choices, k).value ==
            (if Truthy(flags[k]) then [choices[k].key] + DecodeFlags(flags[k + 1..], choices, k + 1).value
             else DecodeFlags(flags[k + 1..], choices, k + 1).value)
  {
    assert flags[k..][0] == flags[k];
    assert flags[k..][1..] == flags[k + 1..];
  }

  /** Decoding the flags from position `k` on yields, in order, the key of
      the choice at each truthy position: one key per truthy flag. */
  lemma {:induction false} DecodedKeys(flags: seq<Value>, choices: seq<Choice>, k: nat)
    requires k <= |flags|
    requires DecodeFlags(flags[k..], choices, k).Ok?
    ensures KeysAt(DecodeFlags(flags[k..], choices, k).value, TruthyPositions(flags, k), choices)
    decreases |flags| - k
  {
    if k < |flags| {
      DecodeStep(flags, choices, k);
      TruthyStep(flags, k);
      DecodedKeys(flags, choices, k + 1);
      if Truthy(flags[k]) {
        KeysAtCons(k, TruthyPositions(flags, k + 1), DecodeFlags(flags[k + 1..], choices, k + 1).value, choices);
      }
    }
  }

  /** The keys of `choices` that occur in `selection`, in choice order. */
  function SelectedKeys(choices: seq<Choice>, selection: seq<Value>): seq<Value>
    decreases |choices|
  {
    if |choices| == 0 then []
    else (if OccursIn(choices[0].key, selection) then [choices[0].key] else []) + SelectedKeys(choices[1..], selection)
  }

  lemma {:induction false} DecodeEncoded(choices: seq<Choice>, selection: seq<Value>, flags: seq<bool>)
    requires |flags| == |choices|
    requires forall i :: 0 <= i < |choices| ==> (flags[i] <==> OccursIn(choices[i].key, selection))
    ensures DecodeFlags(BoolValues(flags), choices, 0) == Ok(SelectedKeys(choices, selection))
    decreases |choices|
  {
    if |choices| > 0 {
      var bv := BoolValues(flags);
      var tail := bv[1..];
      assert tail == BoolValues(flags[1..]);
      forall i | 0 <= i < |choices[1..]|
        ensures flags[1..][i] <==> OccursIn(choices[1..][i].key, selection)
      {
        assert choices[1..][i] == choices[i + 1];
      }
      DecodeEncoded(choices[1..], selection, flags[1..]);
      DecodeShift(tail, choices, 0, 1);
      var rest := DecodeFlags(tail, choices, 1);
      assert rest == Ok(SelectedKeys(choices[1..], selection));
      assert Truthy(bv[0]) == flags[0];
      assert flags[0] == OccursIn(choices[0].key, selection);
      var keys := SelectedKeys(choices, selection);
      if flags[0] {
        assert keys == [choices[0].key] + rest.value;
        assert DecodeFlags(bv, choices, 0) == Ok([choices[0].key] + rest.value);
      } else {
        assert keys == [] + rest.value == rest.value;
        assert DecodeFlags(bv, choices, 0) == rest;
      }
    }
  }

  /** Decoding against the choices from position `d` on is decoding against
      the whole list with the positions moved by `d`. */
  lemma {:induction false} DecodeShift(flags: seq<Value>, choices: seq<Choice>, idx: nat, d: nat)
    requires d <= |choices|
    ensures DecodeFlags(flags, choices, idx + d) == DecodeFlags(flags, choices[d..], idx)
    decreases |flags|
  {
    if |flags| > 0 {
      DecodeShift(flags[1..], choices, idx + 1, d);
      if idx < |choices[d..]| {
        assert choices[d..][idx] == choices[idx + d];
      }
    }
  }

  /** Serialising a list or tuple selection and deserialising it against the
      same resolved choices yields the selected keys in choice order, and
      consumes exactly the one sequence written. */
  lemma RoundTrip<I>(item: MultipleChoiceItem<I>, before: I, after: I, value: Value, rest: seq<Token>)
    requires value.List? || value.Tuple?
    requires Resolve(item.base.choices, before) == Resolve(item.base.choices, after)
    ensures Serialize(item, before, value, []).Ok?
    ensures Deserialize(item, after, Serialize(item, before, value, []).value + rest)
         == Ok((List(SelectedKeys(Resolve(item.base.choices, before), Members(value))), rest))
  {
    var cs := Resolve(item.base.choices, before);
    var flags := EncodeFlags(value, cs).value;
    var stream := Serialize(item, before, value, []).value;
    assert stream + rest == [Sequence(BoolValues(flags))] + rest;
    ReadWhatWasWritten(BoolValues(flags), rest);
    DecodeEncoded(cs, Members(value), flags);
  }

  /** Choice keys that no two choices share under Python `==`. */
  predicate DistinctKeys(choices: seq<Choice>) {
    forall i, j :: 0 <= i < |choices| && 0 <= j < |choices| && i != j ==> !PyEq(choices[i].key, choices[j].key)
  }

  /** `selection` lists keys of `choices` in choice order, each at most once. */
  predicate OrderedSelection(choices: seq<Choice>, selection: seq<Value>)
    decreases |choices|
  {
    if |selection| == 0 then true
    else if |choices| == 0 then false
    else if selection[0] == choices[0].key then OrderedSelection(choices[1..], selection[1..])
    else OrderedSelection(choices[1..], selection)
  }

  lemma {:induction false} SelectionWithinChoices(choices: seq<Choice>, selection: seq<Value>)
    requires OrderedSelection(choices, selection)
    ensures forall x :: x in selection ==> exists i :: 0 <= i < |choices| && choices[i].key == x
    decreases |choices|
  {
    if |selection| > 0 {
      if selection[0] == choices[0].key {
        SelectionWithinChoices(choices[1..], selection[1..]);
        forall x | x in selection ensures exists i :: 0 <= i < |choices| && choices[i].key == x {
          if x != selection[0] {
            assert x in selection[1..];
            var i :| 0 <= i < |choices[1..]| && choices[1..][i].key == x;
            assert choices[i + 1].key == x;
          } else {
            assert choices[0].key == x;
          }
        }
      } else {
        SelectionWithinChoices(choices[1..], selection);
        forall x | x in selection ensures exists i :: 0 <= i < |choices| && choices[i].key == x {
          var i :| 0 <= i < |choices[1..]| && choices[1..][i].key == x;
          assert choices[i + 1].key == x;
        }
      }
    }
  }

  /** With distinct keys, a key occurs (under `==`) in an ordered selection
      drawn from the remaining choices only if it is one of them. */
  lemma KeyNotSelected(choices: seq<Choice>, selection: seq<Value>)
    requires |choices| > 0 && DistinctKeys(choices)
    requires OrderedSelection(choices[1..], selection)
    ensures !OccursIn(choices[0].key, selection)
  {
    SelectionWithinChoices(choices[1..], selection);
    forall j | 0 <= j < |selection| ensures !PyEq(choices[0].key, selection[j]) {
      assert selection[j] in selection;
      var i :| 0 <= i < |choices[1..]| && choices[1..][i].key == selection[j];
      assert choices[i + 1].key == selection[j];
    }
  }

  lemma {:induction false} SelectedKeysOfOrderedSelection(choices: seq<Choice>, selection: seq<Value>)
    requires DistinctKeys(choices)
    requires OrderedSelection(choices, selection)
    ensures SelectedKeys(choices, selection) == selection
    decreases |choices|
  {
    if |choices| == 0 {
    } else if |selection| > 0 && selection[0] == choices[0].key {
      PyEqReflexive(choices[0].key);
      assert OccursIn(choices[0].key, selection);
      SelectedKeysOfOrderedSelection(choices[1..], selection[1..]);
      SelectedKeysIgnoresHead(choices[1..], selection, choices[0].key);
    } else {
      if |selection| > 0 {
        KeyNotSelected(choices, selection);
      }
      SelectedKeysOfOrderedSelection(choices[1..], selection);
    }
  }

  /** Dropping the first selected key does not change which later, distinct,
      keys are selected. */
  lemma {:induction false} SelectedKeysIgnoresHead(choices: seq<Choice>, selection: seq<Value>, head: Value)
    requires |selection| > 0 && selection[0] == head
    requires forall i :: 0 <= i < |choices| ==> !PyEq(choices[i].key, head)
    ensures SelectedKeys(choices, selection) == SelectedKeys(choices, selection[1..])
    decreases |choices|
  {
    if |choices| > 0 {
      assert OccursIn(choices[0].key, selection) <==> OccursIn(choices[0].key, selection[1..]) by {
        if OccursIn(choices[0].key, selection) {
          var j :| 0 <= j < |selection| && PyEq(choices[0].key, selection[j]);
          assert j != 0;
          assert PyEq(choices[0].key, selection[1..][j - 1]);
        }
        if OccursIn(choices[0].key, selection[1..]) {
          var j :| 0 <= j < |selection[1..]| && PyEq(choices[0].key, selection[1..][j]);
          assert PyEq(choices[0].key, selection[j + 1]);
        }
      }
      SelectedKeysIgnoresHead(choices[1..], selection, head);
    }
  }

  /** A selection of distinct keys listed in choice order comes back exactly;
      the empty selection writes all-false flags and comes back empty. */
  lemma SelectionReproduced<I>(item: MultipleChoiceItem<I>, instance: I, selection: seq<Value>)
    requires DistinctKeys(Resolve(item.base.choices, instance))
    requires OrderedSelection(Resolve(item.base.choices, instance), selection)
    ensures Deserialize(item, instance, Serialize(item, instance, List(selection), []).value) == Ok((List(selection), []))
  {
    RoundTrip(item, instance, instance, List(selection), []);
    assert Serialize(item, instance, List(selection), []).value + [] == Serialize(item, instance, List(selection), []).value;
    SelectedKeysOfOrderedSelection(Resolve(item.base.choices, instance), selection);
  }

  lemma EmptySelection<I>(item: MultipleChoiceItem<I>, instance: I)
    ensures var cs := Resolve(item.base.choices, instance);
            && EncodeFlags(List([]), cs).Ok?
            && forall i :: 0 <= i < |cs| ==> !EncodeFlags(List([]), cs).value[i]
    ensures Deserialize(item, instance, Serialize(item, instance, List([]), []).value) == Ok((List([]), []))
  {
    RoundTrip(item, instance, instance, List([]), []);
    assert Serialize(item, instance, List([]), []).value + [] == Serialize(item, instance, List([]), []).value;
    SelectedKeysOfNothing(Resolve(item.base.choices, instance));
  }

  lemma {:induction false} SelectedKeysOfNothing(choices: seq<Choice>)
    ensures SelectedKeys(choices, []) == []
    decreases |choices|
  {
    if |choices| > 0 {
      SelectedKeysOfNothing(choices[1..]);
    }
  }

  /** A worked example: five labels, keyed by position. */
  function FiveLabels(): seq<Value> {
    [Str("a"), Str("b"), Str("c"), Str("d"), Str("e")]
  }

  function FiveChoices(): seq<Choice> {
    [Choice(Int(0), Str("a"), NoneV), Choice(Int(1), Str("b"), NoneV), Choice(Int(2), Str("c"), NoneV),
     Choice(Int(3), Str("d"), NoneV), Choice(Int(4), Str("e"), NoneV)]
  }

  /** The labels normalise to keys 0 to 4. */
  lemma FiveLabelsNormalized()
    ensures NormalizeChoices(Plain, FiveLabels()) == Ok(FiveChoices())
  {
    var raw, cs := FiveLabels(), FiveChoices();
    var n := NormalizeChoices(Plain, raw);
    forall k | 0 <= k < |raw| ensures Normalizable(Plain, raw[k]) {
    }
    forall k | 0 <= k < |cs| ensures n.value[k] == cs[k] {
      assert n.value[k] == Expected(Plain, k, raw[k]);
    }
    assert n.value == cs;
  }

  /** For a list selection the flags are the memberships, whatever the
      choices are. */
  lemma ListFlags(selection: seq<Value>, cs: seq<Choice>, expected: seq<bool>)
    requires |expected| == |cs|
    requires forall i :: 0 <= i < |cs| ==> expected[i] == OccursIn(cs[i].key, selection)
    ensures EncodeFlags(List(selection), cs) == Ok(expected)
  {
    var flags := EncodeFlags(List(selection), cs).value;
    assert Members(List(selection)) == selection;
    assert forall i :: 0 <= i < |cs| ==> flags[i] == expected[i];
    assert flags == expected;
  }

  /** Selecting keys 1 and 3 sets the second and fourth flags. */
  lemma FiveFlags()
    ensures EncodeFlags(List([Int(1), Int(3)]), FiveChoices()) == Ok([false, true, false, true, false])
  {
    var selection := [Int(1), Int(3)];
    var cs := FiveChoices();
    var expected := [false, true, false, true, false];
    assert OccursIn(Int(1), selection) by { assert PyEq(Int(1), selection[0]); }
    assert OccursIn(Int(3), selection) by { assert PyEq(Int(3), selection[1]); }
    assert !OccursIn(Int(0), selection) && !OccursIn(Int(2), selection) && !OccursIn(Int(4), selection);
    forall i | 0 <= i < |cs| ensures expected[i] == OccursIn(cs[i].key, selection) {
      assert cs[i].key == Int(i);
    }
    ListFlags(selection, cs, expected);
  }

  /** The keys are distinct and [1, 3] lists them in choice order. */
  lemma FiveOrdered()
    ensures DistinctKeys(FiveChoices())
    ensures OrderedSelection(FiveChoices(), [Int(1), Int(3)])
  {
  }

  /** The multi-choice item declared over the five labels. */
  lemma FiveItem<I>(instance: I)
    ensures var r := NewMultipleChoiceItem<I>(Listed(FiveLabels()));
            && r == Ok(MultipleChoiceItem(ChoiceItem(Plain, Static(FiveChoices()), Tuple([])), Shape(1, -1)))
            && Resolve(r.value.base.choices, instance) == FiveChoices()
  {
    FiveLabelsNormalized();
  }

  /** The flags written for the selection [1, 3]. */
  lemma FiveWritten<I>(item: MultipleChoiceItem<I>, instance: I)
    requires Resolve(item.base.choices, instance) == FiveChoices()
    ensures Serialize(item, instance, List([Int(1), Int(3)]), [])
            == Ok([Sequence([Bool(false), Bool(true), Bool(false), Bool(true), Bool(false)])])
  {
    FiveFlags();
    var flags := [false, true, false, true, false];
    assert EncodeFlags(List([Int(1), Int(3)]), Resolve(item.base.choices, instance)) == Ok(flags);
    var r := Serialize(item, instance, List([Int(1), Int(3)]), []);
    assert r.Ok? && r.value == [] + [Sequence(BoolValues(flags))];
    assert BoolValues(flags) == [Bool(false), Bool(true), Bool(false), Bool(true), Bool(false)];
  }

  /** Five labels keyed 0 to 4: selecting keys 1 and 3 writes the flags
      false, true, false, true, false and reads back exactly [1, 3]; the
      empty selection comes back empty. */
  lemma FiveChoiceExample<I>(instance: I)
    ensures var r := NewMultipleChoiceItem<I>(Listed(FiveLabels()));
            && r.Ok? && r.value.base.default == Tuple([])
            && Serialize(r.value, instance, List([Int(1), Int(3)]), [])
               == Ok([Sequence([Bool(false), Bool(true), Bool(false), Bool(true), Bool(false)])])
            && Deserialize(r.value, instance, Serialize(r.value, instance, List([Int(1), Int(3)]), []).value)
               == Ok((List([Int(1), Int(3)]), []))
            && Deserialize(r.value, instance, Serialize(r.value, instance, List([]), []).value)
               == Ok((List([]), []))
  {
    FiveItem<I>(instance);
    var item := NewMultipleChoiceItem<I>(Listed(FiveLabels())).value;
    FiveWritten(item, instance);
    FiveOrdered();
    SelectionReproduced(item, instance, [Int(1), Int(3)]);
    EmptySelection(item, instance);
  }
}

=== FILE: decimal.dfy ===
/** Python's `str()` of an integer, and the reading of such text back. */
module Decimal {
  import opened Values

  predicate IsDigit(c: char) {
    '0' <= c <= '9'
  }

  predicate AllDigits(s: string) {
    forall i :: 0 <= i < |s| ==> IsDigit(s[i])
  }

  function DigitChar(d: nat): (c: char)
    requires d < 10
    ensures IsDigit(c)
  {
    "0123456789"[d]
  }

  function DigitValue(c: char): (d: nat)
    requires IsDigit(c)
    ensures d < 10
  {
    (c - '0') as nat
  }

  /** `str(n)` for a non-negative integer: decimal digits, no leading zero. */
  function NatText(n: nat): (s: string)
    ensures |s| > 0 && AllDigits(s)
    ensures |s| > 1 ==> s[0] != '0'
    decreases n
  {
    if n < 10 then [DigitChar(n)] else NatText(n / 10) + [DigitChar(n % 10)]
  }

  /** `str(n)`: a minus sign before the digits of a negative number. */
  function IntText(n: int): (s: string)
    ensures |s| > 0
    ensures forall i :: 0 <= i < |s| ==> IsDigit(s[i]) || (i == 0 && s[i] == '-')
  {
    if n < 0 then "-" + NatText(-n) else NatText(n)
  }

  function ParseDigits(s: string): nat
    requires AllDigits(s)
    decreases |s|
  {
    if |s| == 0 then 0 else 10 * ParseDigits(s[..|s| - 1]) + DigitValue(s[|s| - 1])
  }

  /** Reads the text `IntText` writes; `None` for anything else that is not
      an optional minus sign followed by at least one digit. */
  function ParseInt(s: string): Option<int> {
    if |s| > 1 && s[0] == '-' && AllDigits(s[1..]) then Some(-(ParseDigits(s[1..]) as int))
    else if |s| > 0 && AllDigits(s) then Some(ParseDigits(s))
    else None
  }

  lemma {:induction false} NatTextRoundTrip(n: nat)
    ensures ParseDigits(NatText(n)) == n
    decreases n
  {
    if n >= 10 {
      var s := NatText(n);
      NatTextRoundTrip(n / 10);
      assert s[..|s| - 1] == NatText(n / 10);
    }
  }

  lemma ParseSigned(t: string)
    requires |t| > 0 && AllDigits(t)
    ensures ParseInt("-" + t) == Some(-(ParseDigits(t) as int))
  {
    assert ("-" + t)[1..] == t;
  }

  lemma ParseUnsigned(t: string)
    requires |t| > 0 && AllDigits(t)
    ensures ParseInt(t) == Some(ParseDigits(t))
  {
    assert IsDigit(t[0]);
  }

  /** `str` loses nothing: the written number is read back exactly. */
  lemma IntTextRoundTrip(n: int)
    ensures ParseInt(IntText(n)) == Some(n)
  {
    if n < 0 {
      NatTextRoundTrip(-n);
      ParseSigned(NatText(-n));
    } else {
      NatTextRoundTrip(n);
      ParseUnsigned(NatText(n));
    }
  }
}

=== FILE: disthelpers.dfy ===
/** The pure helpers of the distribution module: `strip_version`,
    `to_include_files` with the POSIX `join` and `basename` it calls, and the
    `target_dir` property of `Distribution`. */
module DistHelpers {
  import opened Values
  import opened Text

  // ---------------------------------------------------------------------
  // str.split and strip_version
  // ---------------------------------------------------------------------

  /** The first index at or after `from` where `sep` occurs in `s`, or `|s|`
      when it occurs nowhere from there on. */
  function FindFrom(s: string, sep: string, from: nat): (k: nat)
    requires |sep| > 0 && from <= |s|
    decreases |s| - from
    ensures from <= k <= |s|
    ensures k < |s| ==> OccursAt(sep, s, k)
    ensures forall i :: from <= i < k ==> !OccursAt(sep, s, i)
  {
    if |s| - from < |sep| then |s|
    else if s[from..from + |sep|] == sep then from
    else FindFrom(s, sep, from + 1)
  }

  /** An occurrence inside a prefix is an occurrence in the whole string. */
  lemma OccursInLonger(t: string, a: string, b: string, i: int)
    requires a <= b && OccursAt(t, a, i)
    ensures OccursAt(t, b, i)
  {
  }

  /** A prefix of a string free of `t` is free of `t`. */
  lemma PrefixFree(t: string, a: string, b: string)
    requires a <= b && !Substring(t, b)
    ensures !Substring(t, a)
  {
    if Substring(t, a) {
      var i :| 0 <= i <= |a| && OccursAt(t, a, i);
      OccursInLonger(t, a, b, i);
    }
  }

  /** `sep.join(parts)`. */
  function JoinWith(sep: string, parts: seq<string>): string {
    if |parts| == 0 then ""
    else if |parts| == 1 then parts[0]
    else parts[0] + sep + JoinWith(sep, parts[1..])
  }

  /** One step of `JoinWith`. */
  lemma JoinWithStep(sep: string, first: string, parts: seq<string>)
    requires |parts| >= 1
    ensures JoinWith(sep, [first] + parts) == first + sep + JoinWith(sep, parts)
  {
  }

  /** Cutting `s` around an occurrence of `sep` at `k` loses nothing. */
  lemma Reassemble(s: string, k: nat, sep: string)
    requires OccursAt(sep, s, k)
    ensures s[..k] + sep + s[k + |sep|..] == s
  {
  }

  /** The text before the first occurrence of `sep` is free of `sep`. */
  lemma FreeBeforeFirst(s: string, sep: string, k: nat)
    requires |sep| > 0 && k == FindFrom(s, sep, 0)
    ensures !Substring(sep, s[..k])
  {
    var first := s[..k];
    forall i | 0 <= i <= |first| ensures !OccursAt(sep, first, i) {
      if OccursAt(sep, first, i) {
        OccursInLonger(sep, first, s, i);
      }
    }
  }

  /** `s.split(sep)` for a non-empty separator: the pieces between the
      occurrences of `sep`, found left to right. Joining them with `sep`
      gives `s` back. */
  function Split(s: string, sep: string): (parts: seq<string>)
    requires |sep| > 0
    decreases |s|
    ensures |parts| >= 1 && parts[0] <= s
    ensures forall i :: 0 <= i < |parts| ==> !Substring(sep, parts[i])
    ensures !Substring(sep, s) <==> parts == [s]
    ensures |parts| > 1 ==> OccursAt(sep, s, |parts[0]|)
    ensures forall i :: 0 <= i < |parts[0]| ==> !OccursAt(sep, s, i)
    ensures JoinWith(sep, parts) == s
  {
    var k := FindFrom(s, sep, 0);
    if k == |s| then
      [s]
    else
      var first, rest := s[..k], s[k + |sep|..];
      FreeBeforeFirst(s, sep, k);
      assert Substring(sep, s) by {
        assert OccursAt(sep, s, k);
      }
      JoinWithStep(sep, first, Split(rest, sep));
      Reassemble(s, k, sep);
      [first] + Split(rest, sep)
  }

  /** `s.split(sep)[0]`: the text before the first `sep`. */
  function CutAt(s: string, sep: string): (r: string)
    requires |sep| > 0
    ensures r <= s && !Substring(sep, r)
    ensures r == s || OccursAt(sep, s, |r|)
    ensures forall i :: 0 <= i < |r| ==> !OccursAt(sep, s, i)
  {
    Split(s, sep)[0]
  }

  /** `strip_version`: the version cut before `beta`, then before `alpha`,
      then before `rc`, then before `dev`. */
  function StripVersion(version: string): (r: string)
    ensures r <= version
    ensures !HasMarker(r)
    ensures forall i, m :: 0 <= i < |r| && IsMarker(m) ==> !OccursAt(m, version, i)
  {
    var v1 := CutAt(version, "beta");
    var v2 := CutAt(v1, "alpha");
    var v3 := CutAt(v2, "rc");
    var r := CutAt(v3, "dev");
    PrefixFree("beta", v2, v1);
    PrefixFree("beta", v3, v2);
    PrefixFree("beta", r, v3);
    PrefixFree("alpha", v3, v2);
    PrefixFree("alpha", r, v3);
    PrefixFree("rc", r, v3);
    NoMarkerStartsInside(version, v1, v2, v3, r);
    r
  }

  /** No occurrence of `m` in `s` starts before position `n`. */
  predicate NoneBefore(m: string, s: string, n: int) {
    forall i :: 0 <= i < n ==> !OccursAt(m, s, i)
  }

  /** Cutting a prefix `v` of `version` at `sep` stops before every
      occurrence of `sep` in `version` itself, provided no occurrence can
      straddle the end of `v`: the character of `version` just after `v` is
      not one of `sep`'s later characters. */
  lemma CutStage(version: string, v: string, sep: string)
    requires |sep| > 0 && v <= version
    requires v == version || (|v| < |version| && version[|v|] !in sep[1..])
    ensures NoneBefore(sep, version, |CutAt(v, sep)|)
  {
    var w := CutAt(v, sep);
    forall i | 0 <= i < |w| ensures !OccursAt(sep, version, i) {
      if i + |sep| <= |v| {
        assert version[i..i + |sep|] == v[i..i + |sep|];
        assert !OccursAt(sep, v, i);
      } else if i + |sep| <= |version| {
        var d := |v| - i;
        assert version[i..i + |sep|][d] == version[|v|];
        assert sep[1..][d - 1] == sep[d];
      }
    }
  }

  /** A cut of a prefix of `version` is a prefix of `version`; when it cuts
      anything, `version` continues with the first character of `sep`. */
  lemma CutEnd(version: string, v: string, sep: string)
    requires |sep| > 0 && v <= version
    ensures CutAt(v, sep) <= version
    ensures CutAt(v, sep) == v || (|CutAt(v, sep)| < |version| && version[|CutAt(v, sep)|] == sep[0])
  {
    var w := CutAt(v, sep);
    if w != v {
      assert v[|w|..|w| + |sep|] == sep;
      assert version[|w|] == v[|w|] == sep[0];
    }
  }

  /** The first two cuts: before "beta", then before "alpha". */
  lemma FirstTwoCuts(version: string, v1: string, v2: string)
    requires v1 == CutAt(version, "beta") && v2 == CutAt(v1, "alpha")
    ensures NoneBefore("beta", version, |v1|) && NoneBefore("alpha", version, |v2|)
    ensures |v2| <= |v1| && v2 <= version
    ensures v2 == version || version[|v2|] in "ba"
  {
    CutStage(version, version, "beta");
    CutEnd(version, version, "beta");
    assert v1 == version || version[|v1|] == 'b';
    assert "alpha"[1..] == "lpha";
    CutStage(version, v1, "alpha");
    CutEnd(version, v1, "alpha");
  }

  /** The third cut, before "rc", of a prefix that is the whole version or
      stops at a "beta" or an "alpha". */
  lemma ThirdCut(version: string, v2: string, v3: string)
    requires v2 <= version && (v2 == version || version[|v2|] in "ba")
    requires v3 == CutAt(v2, "rc")
    ensures NoneBefore("rc", version, |v3|)
    ensures |v3| <= |v2| && v3 <= version
    ensures v3 == version || version[|v3|] in "bar"
  {
    assert "rc"[1..] == "c";
    CutStage(version, v2, "rc");
    CutEnd(version, v2, "rc");
  }

  /** The last cut, before "dev", of a prefix that is the whole version or
      stops at a "beta", an "alpha" or an "rc". */
  lemma LastCut(version: string, v3: string, r: string)
    requires v3 <= version && (v3 == version || version[|v3|] in "bar")
    requires r == CutAt(v3, "dev")
    ensures NoneBefore("dev", version, |r|) && |r| <= |v3|
  {
    assert "dev"[1..] == "ev";
    CutStage(version, v3, "dev");
  }

  /** The four cuts of `strip_version` stop before every marker of the
      original version: no marker starts inside the result. */
  lemma NoMarkerStartsInside(version: string, v1: string, v2: string, v3: string, r: string)
    requires v1 == CutAt(version, "beta") && v2 == CutAt(v1, "alpha")
    requires v3 == CutAt(v2, "rc") && r == CutAt(v3, "dev")
    ensures forall i, m :: 0 <= i < |r| && IsMarker(m) ==> !OccursAt(m, version, i)
  {
    FirstTwoCuts(version, v1, v2);
    ThirdCut(version, v2, v3);
    LastCut(version, v3, r);
    NoMarkerBefore(version, |v1|, |v2|, |v3|, |r|);
  }

  /** Each marker absent before its own cut point is absent before the
      final, earliest one. */
  lemma NoMarkerBefore(version: string, n1: int, n2: int, n3: int, n: int)
    requires n <= n3 <= n2 <= n1
    requires NoneBefore("beta", version, n1) && NoneBefore("alpha", version, n2)
    requires NoneBefore("rc", version, n3) && NoneBefore("dev", version, n)
    ensures forall i, m :: 0 <= i < n && IsMarker(m) ==> !OccursAt(m, version, i)
  {
  }

  /** A prefix of `version` with no marker starting inside it, which is
      either all of `version` or followed by a marker, is the text before the
      earliest marker. */
  lemma CutAtEarliest(version: string, r: string, k: nat, m: string)
    requires r <= version && IsMarker(m) && OccursAt(m, version, k)
    requires forall i, m' :: 0 <= i < |r| && IsMarker(m') ==> !OccursAt(m', version, i)
    requires forall i, m' :: 0 <= i < k && IsMarker(m') ==> !OccursAt(m', version, i)
    requires r == version || exists m' :: IsMarker(m') && OccursAt(m', version, |r|)
    ensures r == version[..k]
  {
    assert |r| <= k;
    if r != version {
      var m' :| IsMarker(m') && OccursAt(m', version, |r|);
      assert |r| >= k;
    }
  }

  /** `strip_version` returns exactly the text before the earliest marker:
      if some marker starts at `k` and none starts before it, the result is
      `version[..k]`. */
  lemma StripVersionEarliestMarker(version: string, k: nat, m: string)
    requires IsMarker(m) && OccursAt(m, version, k)
    requires forall i, m' :: 0 <= i < k && IsMarker(m') ==> !OccursAt(m', version, i)
    ensures StripVersion(version) == version[..k]
  {
    StripVersionCuts(version);
    CutAtEarliest(version, StripVersion(version), k, m);
  }

  /** For instance `strip_version("1betalpha")` is "1", although "alpha",
      which is cut at later, also occurs. */
  lemma StripVersionExample(v: string)
    requires v == "1betalpha"
    ensures StripVersion(v) == "1"
  {
    assert OccursAt("beta", v, 1);
    forall i, m | 0 <= i < 1 && IsMarker(m) ensures !OccursAt(m, v, i) {
      assert v[0..|m|][0] == '1' != m[0];
    }
    StripVersionEarliestMarker(v, 1, "beta");
    assert v[..1] == "1";
  }

  /** The substrings `strip_version` cuts at. */
  predicate IsMarker(m: string) {
    m == "beta" || m == "alpha" || m == "rc" || m == "dev"
  }

  predicate HasMarker(s: string) {
    Substring("beta", s) || Substring("alpha", s) || Substring("rc", s) || Substring("dev", s)
  }

  /** The stripped version is a prefix of the version, free of every marker,
      and it ends where the version has a marker, unless nothing was cut. */
  lemma StripVersionCuts(version: string)
    ensures StripVersion(version) <= version
    ensures !HasMarker(StripVersion(version))
    ensures StripVersion(version) == version ||
            exists m :: IsMarker(m) && OccursAt(m, version, |StripVersion(version)|)
    ensures forall i, m :: 0 <= i < |StripVersion(version)| && IsMarker(m) ==> !OccursAt(m, version, i)
  {
    var v1 := CutAt(version, "beta");
    var v2 := CutAt(v1, "alpha");
    var v3 := CutAt(v2, "rc");
    var r := CutAt(v3, "dev");
    CutsEndAtMarker(version, v1, v2, v3, r);
  }

  /** Four successive cuts, each either keeping its input or stopping where
      its marker occurs, stop where some marker occurs in the original. */
  lemma CutsEndAtMarker(version: string, v1: string, v2: string, v3: string, r: string)
    requires r <= v3 <= v2 <= v1 <= version
    requires v1 == version || OccursAt("beta", version, |v1|)
    requires v2 == v1 || OccursAt("alpha", v1, |v2|)
    requires v3 == v2 || OccursAt("rc", v2, |v3|)
    requires r == v3 || OccursAt("dev", v3, |r|)
    ensures r == version || exists m :: IsMarker(m) && OccursAt(m, version, |r|)
  {
    if r != version {
      if r != v3 {
        OccursInLonger("dev", v3, version, |r|);
        assert IsMarker("dev");
      } else if v3 != v2 {
        OccursInLonger("rc", v2, version, |r|);
        assert IsMarker("rc");
      } else if v2 != v1 {
        OccursInLonger("alpha", v1, version, |r|);
        assert IsMarker("alpha");
      } else {
        assert IsMarker("beta");
      }
    }
  }

  /** A version with no marker is returned unchanged. */
  lemma StripVersionKeepsPlainVersion(version: string)
    requires !HasMarker(version)
    ensures StripVersion(version) == version
  {
  }

  /** Stripping twice is stripping once. */
  lemma StripVersionIdempotent(version: string)
    ensures StripVersion(StripVersion(version)) == StripVersion(version)
  {
    StripVersionCuts(version);
    StripVersionKeepsPlainVersion(StripVersion(version));
  }

  // ---------------------------------------------------------------------
  // posixpath.join, posixpath.basename and to_include_files
  // ---------------------------------------------------------------------

  /** `posixpath.join(a, b)`: an absolute `b` replaces `a`; otherwise `b` is
      appended, with a '/' between unless `a` is empty or already ends in one. */
  function Join(a: string, b: string): (r: string)
    ensures StartsWith(b, "/") ==> r == b
    ensures !StartsWith(b, "/") ==> StartsWith(r, a) && EndsWith(r, b)
  {
    if StartsWith(b, "/") then b
    else if a == "" || EndsWith(a, "/") then a + b
    else a + "/" + b
  }

  /** `posixpath.basename(p)`: what follows the last '/' (all of `p` when it
      has none). */
  function Basename(p: string): (r: string)
    ensures EndsWith(p, r) && '/' !in r
    ensures |r| < |p| ==> p[|p| - |r| - 1] == '/'
  {
    if |p| == 0 || p[|p| - 1] == '/' then ""
    else Basename(p[..|p| - 1]) + [p[|p| - 1]]
  }

  /** The contract of `Basename` pins it down: the longest '/'-free suffix. */
  lemma BasenameCharacterised(p: string, r: string)
    requires EndsWith(p, r) && '/' !in r
    requires |r| < |p| ==> p[|p| - |r| - 1] == '/'
    ensures r == Basename(p)
  {
  }

  /** Appending a '/'-free name to a directory prefix leaves that name as the
      basename. */
  lemma BasenameAfterSlash(x: string, b: string)
    requires '/' !in b && (x == "" || EndsWith(x, "/"))
    ensures Basename(x + b) == b
  {
    var p := x + b;
    assert EndsWith(p, b) by {
      assert p[|p| - |b|..] == b;
    }
    if |b| < |p| {
      assert p[|p| - |b| - 1] == x[|x| - 1];
    }
    BasenameCharacterised(p, b);
  }

  /** The destination a source is copied to keeps the source's file name. */
  lemma JoinKeepsBasename(destDir: string, source: string)
    ensures Basename(Join(destDir, Basename(source))) == Basename(source)
  {
    var b := Basename(source);
    if destDir == "" || EndsWith(destDir, "/") {
      BasenameAfterSlash(destDir, b);
    } else {
      var x := destDir + "/";
      assert EndsWith(x, "/") by {
        assert x[|x| - 1..] == "/";
      }
      assert destDir + "/" + b == x + b;
      BasenameAfterSlash(x, b);
    }
  }

  /** ... and lies under the destination directory. */
  lemma JoinStaysInDirectory(destDir: string, source: string)
    ensures StartsWith(Join(destDir, Basename(source)), destDir)
  {
    var b := Basename(source);
    if |b| > 0 {
      assert b[0] in b;
    }
    assert !StartsWith(b, "/");
  }

  /** One entry of the py2exe `data_files` format: a destination directory
      and the source files copied into it. */
  datatype DataFilesEntry = DataFilesEntry(destDir: string, sources: seq<string>)

  /** The cx_Freeze `include_files` pair for `source` copied into `destDir`. */
  function IncludePair(destDir: string, source: string): (string, string) {
    (source, Join(destDir, Basename(source)))
  }

  /** The pairs one entry contributes, in the order of its sources. */
  function EntryPairs(destDir: string, sources: seq<string>): (r: seq<(string, string)>)
    ensures |r| == |sources|
    ensures forall j :: 0 <= j < |sources| ==> r[j] == IncludePair(destDir, sources[j])
  {
    if |sources| == 0 then []
    else [IncludePair(destDir, sources[0])] + EntryPairs(destDir, sources[1..])
  }

  /** The reference flattening: the entries' pairs, one entry after another. */
  function Flatten(entries: seq<DataFilesEntry>): seq<(string, string)> {
    if |entries| == 0 then []
    else EntryPairs(entries[0].destDir, entries[0].sources) + Flatten(entries[1..])
  }

  /** The number of source names across all entries. */
  function SourceCount(entries: seq<DataFilesEntry>): nat {
    if |entries| == 0 then 0 else |entries[0].sources| + SourceCount(entries[1..])
  }

  /** Flattening a concatenation concatenates the flattenings. */
  lemma {:induction false} FlattenAppend(a: seq<DataFilesEntry>, b: seq<DataFilesEntry>)
    ensures Flatten(a + b) == Flatten(a) + Flatten(b)
    ensures SourceCount(a + b) == SourceCount(a) + SourceCount(b)
  {
    if |a| > 0 {
      assert (a + b)[1..] == a[1..] + b;
      FlattenAppend(a[1..], b);
    } else {
      assert a + b == b;
    }
  }

  /** There is one pair per source name. */
  lemma {:induction false} FlattenLength(entries: seq<DataFilesEntry>)
    ensures |Flatten(entries)| == SourceCount(entries)
  {
    if |entries| > 0 {
      FlattenLength(entries[1..]);
    }
  }

  /** Source `j` of entry `i` lands after every source of the earlier entries
      and the earlier sources of its own entry, paired with its destination. */
  lemma FlattenAt(entries: seq<DataFilesEntry>, i: int, j: int)
    requires 0 <= i < |entries| && 0 <= j < |entries[i].sources|
    ensures SourceCount(entries[..i]) + j < |Flatten(entries)|
    ensures Flatten(entries)[SourceCount(entries[..i]) + j] ==
            IncludePair(entries[i].destDir, entries[i].sources[j])
  {
    var before, after := entries[..i], entries[i..];
    assert entries == before + after;
    FlattenAppend(before, after);
    FlattenLength(before);
    FlattenLength(after);
    assert Flatten(after) == EntryPairs(after[0].destDir, after[0].sources) + Flatten(after[1..]);
  }

  /** Adding the next source of an entry adds its pair at the end. */
  lemma EntryPairsSnoc(destDir: string, sources: seq<string>, j: int)
    requires 0 <= j < |sources|
    ensures EntryPairs(destDir, sources[..j + 1]) ==
            EntryPairs(destDir, sources[..j]) + [IncludePair(destDir, sources[j])]
  {
    var longer := EntryPairs(destDir, sources[..j + 1]);
    var shorter := EntryPairs(destDir, sources[..j]) + [IncludePair(destDir, sources[j])];
    assert |longer| == j + 1 == |shorter|;
    forall k | 0 <= k <= j ensures longer[k] == shorter[k] {
      assert sources[..j + 1][k] == sources[k];
      if k < j {
        assert sources[..j][k] == sources[k];
      }
    }
    assert longer == shorter;
  }

  /** Adding the next entry adds its pairs at the end. */
  lemma FlattenSnoc(entries: seq<DataFilesEntry>, i: int)
    requires 0 <= i < |entries|
    ensures Flatten(entries[..i + 1]) ==
            Flatten(entries[..i]) + EntryPairs(entries[i].destDir, entries[i].sources)
  {
    assert entries[..i + 1] == entries[..i] + [entries[i]];
    FlattenAppend(entries[..i], [entries[i]]);
    assert Flatten([entries[i]]) == EntryPairs(entries[i].destDir, entries[i].sources) + Flatten([]);
  }

  /** `to_include_files`: converts the py2exe `data_files` format to the
      cx_Freeze `include_files` format. */
  method ToIncludeFiles(dataFiles: seq<DataFilesEntry>) returns (includeFiles: seq<(string, string)>)
    ensures includeFiles == Flatten(dataFiles)
    ensures |includeFiles| == SourceCount(dataFiles)
  {
    includeFiles := [];
    var i := 0;
    while i < |dataFiles|
      invariant 0 <= i <= |dataFiles|
      invariant includeFiles == Flatten(dataFiles[..i])
    {
      var entry := dataFiles[i];
      var done := includeFiles;
      var j := 0;
      while j < |entry.sources|
        invariant 0 <= j <= |entry.sources|
        invariant includeFiles == done + EntryPairs(entry.destDir, entry.sources[..j])
      {
        var source := entry.sources[j];
        var dest := Join(entry.destDir, Basename(source));
        EntryPairsSnoc(entry.destDir, entry.sources, j);
        includeFiles := includeFiles + [(source, dest)];
        j := j + 1;
      }
      assert entry.sources[..j] == entry.sources;
      FlattenSnoc(dataFiles, i);
      i := i + 1;
    }
    assert dataFiles[..i] == dataFiles;
    FlattenLength(dataFiles);
  }

  // ---------------------------------------------------------------------
  // Distribution.target_dir
  // ---------------------------------------------------------------------

  /** The part of a `Distribution` the `target_dir` property reads: the
      `_target_dir` attribute. */
  datatype Distribution = Distribution(targetDir: Value)

  /** A new distribution: `_target_dir` starts as `None`. */
  function NewDistribution(): (d: Distribution)
    ensures TargetDir(d) == Str("dist")
  {
    Distribution(NoneV)
  }

  /** The `target_dir` getter: `'dist'` while unset, the stored value
      otherwise. */
  function TargetDir(d: Distribution): (r: Value)
    ensures r != NoneV
    ensures d.targetDir == NoneV ==> r == Str("dist")
    ensures d.targetDir != NoneV ==> r == d.targetDir
  {
    if d.targetDir == NoneV then Str("dist") else d.targetDir
  }

  /** The `target_dir` setter: stores the value as given, `None` included. */
  function SetTargetDir(d: Distribution, value: Value): (r: Distribution)
    ensures TargetDir(r) == (if value == NoneV then Str("dist") else value)
  {
    d.(targetDir := value)
  }

  /** Only the last value set matters. */
  lemma LastSetWins(d: Distribution, first: Value, second: Value)
    ensures SetTargetDir(SetTargetDir(d, first), second) == SetTargetDir(d, second)
  {
  }
}

=== FILE: doubles.dfy ===
/** The conversion of a Python integer to a `float` (an IEEE 754 double):
    the nearest value with a 53-bit significand, ties to the even one.

    Only the integer value of the result is modelled. Overflow past the
    largest double cannot happen for a Python 2 `int` (it is bounded by
    `sys.maxint`), so it is not modelled.
 */
module DoubleRounding {

  function Pow2(k: nat): (p: nat)
    ensures p >= 1
  {
    if k == 0 then 1 else 2 * Pow2(k - 1)
  }

  /** 2^53: every integer of smaller magnitude is a double. */
  const ExactLimit: int := 0x20_0000_0000_0000

  lemma {:induction false} Pow2Add(a: nat, b: nat)
    ensures Pow2(a + b) == Pow2(a) * Pow2(b)
    decreases a
  {
    if a > 0 {
      Pow2Add(a - 1, b);
    }
  }

  lemma ExactLimitIsPow2()
    ensures Pow2(53) == ExactLimit
  {
    assert Pow2(10) == 0x400;
    Pow2Add(10, 10);
    Pow2Add(20, 20);
    Pow2Add(40, 10);
    assert Pow2(3) == 8;
    Pow2Add(50, 3);
  }

  /** How many low-order bits of the magnitude `m` a double cannot hold:
      the least `k` with `m < 2^(53 + k)` (a double has 53 significand bits). */
  function DroppedBits(m: nat): (k: nat)
    ensures m < Pow2(53 + k)
    ensures k > 0 ==> Pow2(52 + k) <= m
    decreases m
  {
    if m < Pow2(53) then 0 else 1 + DroppedBits(m / 2)
  }

  /** `m` rounded to a multiple of `2^k`: the nearest one, and of two equally
      near the one whose quotient by `2^k` is even. */
  function RoundToMultiple(m: nat, k: nat): nat {
    var p := Pow2(k);
    var q := m / p;
    var rem := m % p;
    if 2 * rem > p || (2 * rem == p && q % 2 == 1) then (q + 1) * p else q * p
  }

  /** The integer value of `float(n)`. */
  function ToDouble(n: int): int {
    if n < 0 then -(RoundToMultiple(-n, DroppedBits(-n)) as int)
    else RoundToMultiple(n, DroppedBits(n))
  }

  /** Integers below 2^53 in magnitude convert exactly. */
  lemma SmallIntegersExact(n: int)
    requires -ExactLimit < n < ExactLimit
    ensures ToDouble(n) == n
  {
    ExactLimitIsPow2();
  }

  /** 2^53 + 1 is the first integer that does not survive: it is exactly
      between 2^53 and 2^53 + 2, and the tie goes to 2^53. */
  lemma FirstInexactInteger()
    ensures ToDouble(ExactLimit + 1) == ExactLimit
  {
    ExactLimitIsPow2();
    var m := ExactLimit + 1;
    assert m / 2 == Pow2(52);
    assert DroppedBits(m / 2) == 0;
    assert DroppedBits(m) == 1;
  }
}

=== FILE: numeric_items.dfy ===
/** The integer data item (`IntItem`, a `NumericTypeItem` whose type is
    `int`): its value check, its text conversion and its generated help.

    A descriptor is modelled by its "data" properties; its label, help text
    and default live in the `DataItem` base class, which is not part of this
    model.
 */
module NumericItems {
  import opened Values
  import opened Decimal
  import opened Text
  import DoubleRounding

  /** The "data" properties of an `IntItem`: optional bounds, the `nonzero`
      flag (Python truthiness of the property) and the parity policy
      (`Some(true)` even, `Some(false)` odd, `None` unchecked). */
  datatype IntItem = IntItem(min: Option<int>, max: Option<int>, nonzero: bool, even: Option<bool>)

  /** The numeric policy of `NumericTypeItem`, stated on the number itself. */
  predicate WithinPolicy(item: IntItem, n: int) {
    && (item.nonzero ==> n != 0)
    && (item.min.Some? ==> item.min.value <= n)
    && (item.max.Some? ==> n <= item.max.value)
  }

  /** `NumericTypeItem.check_value`: type test, then zero, minimum and maximum,
      each rejecting on the first failure. A bool passes the type test (it is
      an `int` in Python) and counts as 0 or 1; a `long` does not. */
  function CheckNumber(item: IntItem, v: Value): (ok: bool)
    ensures ok <==> IsInt(v) && WithinPolicy(item, NumberOf(v))
  {
    if !IsInt(v) then false
    else if item.nonzero && NumberOf(v) == 0 then false
    else if item.min.Some? && NumberOf(v) < item.min.value then false
    else if item.max.Some? && NumberOf(v) > item.max.value then false
    else true
  }

  /** A zero value fails whatever the bounds say, `False` included. */
  lemma NonzeroRejectsZero(item: IntItem, v: Value)
    requires item.nonzero
    requires IsInt(v) && NumberOf(v) == 0
    ensures !CheckNumber(item, v)
  {
  }

  /** `value//2 == value/2.` read with exact arithmetic: the floor of the half
      equals the half. */
  predicate HalvesAgree(n: int) {
    (n / 2) as real == (n as real) / 2.0
  }

  /** The same test as Python evaluates it: `value/2.` first converts the
      integer to a double. */
  predicate HalvesAgreeAsWritten(n: int) {
    (n / 2) as real == (DoubleRounding.ToDouble(n) as real) / 2.0
  }

  lemma HalvesAgreeIffEven(n: int)
    ensures HalvesAgree(n) <==> n % 2 == 0
  {
  }

  /** `IntItem.check_value`: the numeric check, then the parity policy. */
  function CheckInt(item: IntItem, v: Value): (ok: bool)
    ensures ok <==> CheckNumber(item, v) && (item.even.Some? ==> item.even.value == (NumberOf(v) % 2 == 0))
  {
    if !CheckNumber(item, v) then false
    else if item.even.Some? then
      HalvesAgreeIffEven(NumberOf(v));
      var isEven := HalvesAgree(NumberOf(v));
      !((item.even.value && !isEven) || (!item.even.value && isEven))
    else true
  }

  /** `IntItem.check_value` with the parity test computed through a double,
      as guidata does. */
  function CheckIntAsWritten(item: IntItem, v: Value): (ok: bool)
    ensures ok <==> CheckNumber(item, v) && (item.even.Some? ==> item.even.value == HalvesAgreeAsWritten(NumberOf(v)))
  {
    if !CheckNumber(item, v) then false
    else if item.even.Some? then
      var isEven := HalvesAgreeAsWritten(NumberOf(v));
      !((item.even.value && !isEven) || (!item.even.value && isEven))
    else true
  }

  /** Below 2^53 in magnitude the double does not change the answer. */
  lemma AsWrittenAgreesBelowExactLimit(item: IntItem, v: Value)
    requires IsInt(v) && -DoubleRounding.ExactLimit < NumberOf(v) < DoubleRounding.ExactLimit
    ensures CheckIntAsWritten(item, v) == CheckInt(item, v)
  {
    DoubleRounding.SmallIntegersExact(NumberOf(v));
  }

  /** 2^53 + 1 is odd, but its double is 2^53, so guidata's test calls it
      even: an odd-only item rejects it and an even-only item accepts it. */
  lemma AsWrittenMisjudgesParity()
    ensures (DoubleRounding.ExactLimit + 1) % 2 == 1
    ensures HalvesAgreeAsWritten(DoubleRounding.ExactLimit + 1)
    ensures !CheckIntAsWritten(IntItem(None, None, false, Some(false)), Int(DoubleRounding.ExactLimit + 1))
    ensures CheckInt(IntItem(None, None, false, Some(false)), Int(DoubleRounding.ExactLimit + 1))
    ensures CheckIntAsWritten(IntItem(None, None, false, Some(true)), Int(DoubleRounding.ExactLimit + 1))
  {
    DoubleRounding.FirstInexactInteger();
  }

  // ---------------------------------------------------------------------
  // from_string

  /** The characters of the pattern `[\d\(\)\+/\-\*.]|e`. */
  predicate IsGateChar(c: char) {
    IsDigit(c) || c == '(' || c == ')' || c == '+' || c == '/' || c == '-' || c == '*' || c == '.' || c == 'e'
  }

  predicate AllGateChars(s: string) {
    forall i :: 0 <= i < |s| ==> IsGateChar(s[i])
  }

  /** End of the longest run of pattern characters starting at `i`. */
  function RunEnd(s: string, i: nat): (j: nat)
    requires i <= |s|
    ensures i <= j <= |s|
    ensures forall k :: i <= k < j ==> IsGateChar(s[k])
    ensures j < |s| ==> !IsGateChar(s[j])
    decreases |s| - i
  {
    if i < |s| && IsGateChar(s[i]) then RunEnd(s, i + 1) else i
  }

  /** `re.match(r'^([\d\(\)\+/\-\*.]|e)+$', s)`: one or more pattern
      characters, then the end of the text, where `$` also matches just
      before a final newline. */
  function MatchesGate(s: string): (m: bool)
    ensures m <==> || (|s| > 0 && AllGateChars(s))
                   || (|s| > 1 && s[|s| - 1] == '\n' && AllGateChars(s[..|s| - 1]))
  {
    var j := RunEnd(s, 0);
    j > 0 && (j == |s| || (j == |s| - 1 && s[j] == '\n'))
  }

  /** `NumericTypeItem.from_string` for an integer item. `evaluate` stands
      for `int(eval(text))`, with `None` wherever that raises; the text it
      receives still carries the final newline the pattern let through. */
  function FromString(text: string, evaluate: string -> Option<int>): (r: Option<int>)
    ensures |text| == 0 ==> r == None
    ensures (exists i :: 0 <= i < |text| && !IsGateChar(text[i]) && !(i == |text| - 1 && text[i] == '\n'))
            ==> r == None
    ensures (|text| > 0 && AllGateChars(text)) ==> r == evaluate(text)
    ensures r.Some? ==> r == evaluate(text)
    ensures MatchesGate(text) ==> r == evaluate(text)
    ensures !MatchesGate(text) ==> r == None
    ensures (|text| > 1 && text[|text| - 1] == '\n' && AllGateChars(text[..|text| - 1])) ==> r == evaluate(text)
  {
    if MatchesGate(text) then evaluate(text) else None
  }

  /** A lone newline is not a number, but a number before a newline passes. */
  lemma GateAndNewlines()
    ensures !MatchesGate("\n")
    ensures MatchesGate("12\n")
    ensures !MatchesGate("1\n\n")
  {
  }

  // ---------------------------------------------------------------------
  // get_auto_help

  function RangePhrase(min: Option<int>, max: Option<int>): string {
    if min.Some? && max.Some? then " between " + IntText(min.value) + " and " + IntText(max.value)
    else if min.Some? then " higher than " + IntText(min.value)
    else if max.Some? then " lower than " + IntText(max.value)
    else ""
  }

  function NonzeroPhrase(nonzero: bool): string {
    if nonzero then ", non zero" else ""
  }

  function ParityPhrase(even: Option<bool>): string {
    match even
    case None => ""
    case Some(true) => ", even"
    case Some(false) => ", odd"
  }

  /** `IntItem.get_auto_help` (with the `NumericTypeItem` part it extends);
      the translation function `_` is the identity here. */
  function AutoHelp(item: IntItem): (r: string)
    ensures StartsWith(r, "integer")
    ensures item.even == Some(true) ==> EndsWith(r, ", even")
    ensures item.even == Some(false) ==> EndsWith(r, ", odd")
    ensures item.even.None? && item.nonzero ==> EndsWith(r, ", non zero")
    ensures item.min.None? && item.max.None? && !item.nonzero && item.even.None? ==> r == "integer"
  {
    var head := "integer" + RangePhrase(item.min, item.max);
    var r := head + NonzeroPhrase(item.nonzero) + ParityPhrase(item.even);
    assert r[..7] == head[..7];
    assert r[|r| - |ParityPhrase(item.even)|..] == ParityPhrase(item.even);
    assert item.even.None? ==> r[|r| - |NonzeroPhrase(item.nonzero)|..] == NonzeroPhrase(item.nonzero);
    r
  }

  /** Index of the first space in `s`, or `|s|`. */
  function SpaceIndex(s: string): (i: nat)
    ensures i <= |s|
    ensures forall k :: 0 <= k < i ==> s[k] != ' '
    ensures i < |s| ==> s[i] == ' '
  {
    if |s| == 0 then 0 else if s[0] == ' ' then 0 else 1 + SpaceIndex(s[1..])
  }

  function DecodeRange(r: string): Option<(Option<int>, Option<int>)> {
    if r == "" then Some((None, None))
    else if StartsWith(r, " between ") then
      var rest := r[9..];
      var i := SpaceIndex(rest);
      if StartsWith(rest[i..], " and ") then
        match (ParseInt(rest[..i]), ParseInt(rest[i + 5..]))
        case (Some(a), Some(b)) => Some((Some(a), Some(b)))
        case _ => None
      else None
    else if StartsWith(r, " higher than ") then
      match ParseInt(r[13..])
      case Some(a) => Some((Some(a), None))
      case None => None
    else if StartsWith(r, " lower than ") then
      match ParseInt(r[12..])
      case Some(b) => Some((None, Some(b)))
      case None => None
    else None
  }

  function SplitParity(h: string): (Option<bool>, string) {
    if EndsWith(h, ", even") then (Some(true), h[..|h| - 6])
    else if EndsWith(h, ", odd") then (Some(false), h[..|h| - 5])
    else (None, h)
  }

  function SplitNonzero(h: string): (bool, string) {
    if EndsWith(h, ", non zero") then (true, h[..|h| - 10]) else (false, h)
  }

  /** Reads the constraints back out of a generated help text. */
  function DecodeHelp(h: string): Option<IntItem> {
    var (even, h1) := SplitParity(h);
    var (nonzero, h2) := SplitNonzero(h1);
    if StartsWith(h2, "integer") then
      match DecodeRange(h2[7..])
      case Some((mn, mx)) => Some(IntItem(mn, mx, nonzero, even))
      case None => None
    else None
  }

  lemma IntTextEndsInDigit(n: int)
    ensures IsDigit(IntText(n)[|IntText(n)| - 1])
    ensures forall k :: 0 <= k < |IntText(n)| ==> IntText(n)[k] != ' '
  {
  }

  /** The text before the parity and non-zero phrases ends in a digit or in
      the `r` of "integer". */
  lemma RangeTail(item: IntItem)
    ensures var s := "integer" + RangePhrase(item.min, item.max);
            IsDigit(s[|s| - 1]) || s[|s| - 1] == 'r'
  {
  }

  /** The " between " branch of `DecodeRange`, given its pieces. */
  lemma DecodeRangeBetween(r: string, i: nat, lo: int, hi: int)
    requires StartsWith(r, " between ")
    requires i <= |r[9..]| && SpaceIndex(r[9..]) == i && StartsWith(r[9..][i..], " and ")
    requires ParseInt(r[9..][..i]) == Some(lo) && ParseInt(r[9..][i + 5..]) == Some(hi)
    ensures DecodeRange(r) == Some((Some(lo), Some(hi)))
  {
  }

  /** How `" between " + a + " and " + b` splits, for a word `a` with no space. */
  lemma BetweenShape(a: string, b: string)
    requires forall k :: 0 <= k < |a| ==> a[k] != ' '
    ensures var r := " between " + a + " and " + b;
            && StartsWith(r, " between ")
            && r[9..] == a + " and " + b
            && SpaceIndex(r[9..]) == |a|
            && r[9..][..|a|] == a
            && StartsWith(r[9..][|a|..], " and ")
            && r[9..][|a| + 5..] == b
  {
    var rest := a + " and " + b;
    var r := " between " + a + " and " + b;
    assert r == " between " + rest;
    assert rest == a + (" and " + b);
    SpaceIndexOfWord(a, " and " + b);
    assert rest[|a|..] == " and " + b;
  }

  lemma DecodeBetween(lo: int, hi: int)
    ensures DecodeRange(" between " + IntText(lo) + " and " + IntText(hi)) == Some((Some(lo), Some(hi)))
  {
    var a := IntText(lo);
    var b := IntText(hi);
    IntTextEndsInDigit(lo);
    BetweenShape(a, b);
    IntTextRoundTrip(lo);
    IntTextRoundTrip(hi);
    DecodeRangeBetween(" between " + a + " and " + b, |a|, lo, hi);
  }

  /** The " higher than " branch of `DecodeRange`. */
  lemma DecodeRangeHigher(x: string, lo: int)
    requires ParseInt(x) == Some(lo)
    ensures DecodeRange(" higher than " + x) == Some((Some(lo), None))
  {
    var r := " higher than " + x;
    assert r[1] == 'h';
    assert r[13..] == x;
  }

  lemma DecodeHigher(lo: int)
    ensures DecodeRange(" higher than " + IntText(lo)) == Some((Some(lo), None))
  {
    IntTextRoundTrip(lo);
    DecodeRangeHigher(IntText(lo), lo);
  }

  /** The " lower than " branch of `DecodeRange`. */
  lemma DecodeRangeLower(x: string, hi: int)
    requires ParseInt(x) == Some(hi)
    ensures DecodeRange(" lower than " + x) == Some((None, Some(hi)))
  {
    var r := " lower than " + x;
    assert r[1] == 'l';
    assert r[12..] == x;
  }

  lemma DecodeLower(hi: int)
    ensures DecodeRange(" lower than " + IntText(hi)) == Some((None, Some(hi)))
  {
    IntTextRoundTrip(hi);
    DecodeRangeLower(IntText(hi), hi);
  }

  lemma DecodeRangeOf(min: Option<int>, max: Option<int>)
    ensures DecodeRange(RangePhrase(min, max)) == Some((min, max))
  {
    if min.Some? && max.Some? {
      DecodeBetween(min.value, max.value);
    } else if min.Some? {
      DecodeHigher(min.value);
    } else if max.Some? {
      DecodeLower(max.value);
    }
  }

  lemma {:induction false} SpaceIndexOfWord(w: string, t: string)
    requires forall k :: 0 <= k < |w| ==> w[k] != ' '
    requires |t| > 0 && t[0] == ' '
    ensures SpaceIndex(w + t) == |w|
    decreases |w|
  {
    if |w| > 0 {
      assert (w + t)[1..] == w[1..] + t;
      SpaceIndexOfWord(w[1..], t);
    } else {
      assert w + t == t;
    }
  }

  lemma SplitParityOf(s: string, even: Option<bool>)
    requires |s| > 0 && (IsDigit(s[|s| - 1]) || s[|s| - 1] == 'r' || s[|s| - 1] == 'o')
    ensures SplitParity(s + ParityPhrase(even)) == (even, s)
  {
    var h := s + ParityPhrase(even);
    match even {
      case Some(true) =>
        assert h[|h| - 6..] == ", even";
        assert h[..|h| - 6] == s;
      case Some(false) =>
        assert h[|h| - 1] == 'd';
        assert h[|h| - 5..] == ", odd";
        assert h[..|h| - 5] == s;
      case None =>
        assert h == s;
        assert !EndsWith(h, ", even") && !EndsWith(h, ", odd");
    }
  }

  lemma SplitNonzeroOf(s: string, nonzero: bool)
    requires |s| > 0 && (IsDigit(s[|s| - 1]) || s[|s| - 1] == 'r')
    ensures SplitNonzero(s + NonzeroPhrase(nonzero)) == (nonzero, s)
  {
    var h := s + NonzeroPhrase(nonzero);
    if nonzero {
      assert h[|h| - 10..] == ", non zero";
      assert h[..|h| - 10] == s;
    } else {
      assert h == s;
      assert !EndsWith(h, ", non zero");
    }
  }

  /** The generated help text states the constraints without loss: they can
      be read back from it. */
  lemma AutoHelpDecodes(item: IntItem)
    ensures DecodeHelp(AutoHelp(item)) == Some(item)
  {
    var range := RangePhrase(item.min, item.max);
    var base := "integer" + range;
    var s1 := base + NonzeroPhrase(item.nonzero);
    assert AutoHelp(item) == s1 + ParityPhrase(item.even);
    RangeTail(item);
    SplitNonzeroOf(base, item.nonzero);
    assert s1[|s1| - 1] == base[|base| - 1] || s1[|s1| - 1] == 'o';
    SplitParityOf(s1, item.even);
    assert base[..7] == "integer";
    assert base[7..] == range;
    DecodeRangeOf(item.min, item.max);
  }

  /** Two integer items with the same help text have the same constraints. */
  lemma AutoHelpInjective(a: IntItem, b: IntItem)
    requires AutoHelp(a) == AutoHelp(b)
    ensures a == b
  {
    AutoHelpDecodes(a);
    AutoHelpDecodes(b);
  }
}

=== FILE: record_protocol.dfy ===
/** Descriptors serialised one after another, in declaration order, through
    one writer and read back through one reader, as a record container does
    with the items it holds (the container itself is not part of this
    model). Each multi-choice item writes and reads exactly one sequence; a
    button writes and reads nothing; so every item finds its own data. */
module RecordProtocol {
  import opened Values
  import opened Streams
  import ChoiceItems
  import ButtonItems

  datatype Field<!I> =
    | MultiChoice(multi: ChoiceItems.MultipleChoiceItem<I>)
    | Button(button: ButtonItems.ButtonItem<I>)

  function SerializeField<I>(field: Field<I>, instance: I, value: Value, out: seq<Token>): Result<seq<Token>> {
    match field
    case MultiChoice(m) => ChoiceItems.Serialize(m, instance, value, out)
    case Button(b) => Ok(ButtonItems.Serialize(b, instance, value, out))
  }

  function DeserializeField<I>(field: Field<I>, instance: I, current: Value, input: seq<Token>)
    : Result<(Value, seq<Token>)>
  {
    match field
    case MultiChoice(m) => ChoiceItems.Deserialize(m, instance, input)
    case Button(b) => Ok(ButtonItems.Deserialize(b, instance, current, input))
  }

  /** Every field's `serialize`, in order, on one writer. */
  function SerializeAll<I>(fields: seq<Field<I>>, instance: I, values: seq<Value>, out: seq<Token>)
    : Result<seq<Token>>
    requires |values| == |fields|
    decreases |fields|
  {
    if |fields| == 0 then Ok(out)
    else
      var out1 :- SerializeField(fields[0], instance, values[0], out);
      SerializeAll(fields[1..], instance, values[1..], out1)
  }

  /** Every field's `deserialize`, in order, on one reader; `current` holds
      the values before reading. */
  function DeserializeAll<I>(fields: seq<Field<I>>, instance: I, current: seq<Value>, input: seq<Token>)
    : Result<(seq<Value>, seq<Token>)>
    requires |current| == |fields|
    decreases |fields|
  {
    if |fields| == 0 then Ok(([], input))
    else
      var first :- DeserializeField(fields[0], instance, current[0], input);
      var others :- DeserializeAll(fields[1..], instance, current[1..], first.1);
      Ok(([first.0] + others.0, others.1))
  }

  /** A value the round trip can carry: multi-choice values are lists or
      tuples of selected keys; a button's value is never written. */
  predicate Persistable<I>(field: Field<I>, value: Value) {
    field.MultiChoice? ==> value.List? || value.Tuple?
  }

  /** What a field holds after the round trip: the selected keys in choice
      order for a multi-choice item, the untouched current value for a
      button. */
  function Restored<I>(field: Field<I>, instance: I, value: Value, current: Value): Value
    requires Persistable(field, value)
  {
    match field
    case MultiChoice(m) => List(ChoiceItems.SelectedKeys(ChoiceItems.Resolve(m.base.choices, instance), ChoiceItems.Members(value)))
    case Button(_) => current
  }

  /** `Restored` for every field. */
  function RestoredAll<I>(fields: seq<Field<I>>, instance: I, values: seq<Value>, current: seq<Value>): (r: seq<Value>)
    requires |values| == |fields| && |current| == |fields|
    requires forall i :: 0 <= i < |fields| ==> Persistable(fields[i], values[i])
    ensures |r| == |fields|
    ensures forall i :: 0 <= i < |fields| ==> r[i] == Restored(fields[i], instance, values[i], current[i])
    decreases |fields|
  {
    if |fields| == 0 then []
    else [Restored(fields[0], instance, values[0], current[0])]
         + RestoredAll(fields[1..], instance, values[1..], current[1..])
  }

  lemma FieldRoundTrip<I>(field: Field<I>, instance: I, value: Value, current: Value, rest: seq<Token>)
    requires Persistable(field, value)
    ensures SerializeField(field, instance, value, []).Ok?
    ensures DeserializeField(field, instance, current, SerializeField(field, instance, value, []).value + rest)
         == Ok((Restored(field, instance, value, current), rest))
  {
    match field
    case MultiChoice(m) =>
      ChoiceItems.RoundTrip(m, instance, instance, value, rest);
    case Button(b) =>
      assert SerializeField(field, instance, value, []).value + rest == rest;
  }

  /** One field writes the same tokens whatever was written before it. */
  lemma FieldAppends<I>(field: Field<I>, instance: I, value: Value, out: seq<Token>)
    ensures SerializeField(field, instance, value, out).Ok? <==> SerializeField(field, instance, value, []).Ok?
    ensures SerializeField(field, instance, value, out).Ok? ==>
              SerializeField(field, instance, value, out).value == out + SerializeField(field, instance, value, []).value
  {
  }

  /** Writing appends: serialising after earlier output leaves that output
      in front of what the fields write on their own. */
  lemma {:induction false} SerializeAppends<I>(fields: seq<Field<I>>, instance: I, values: seq<Value>, out: seq<Token>)
    requires |values| == |fields|
    ensures SerializeAll(fields, instance, values, out).Ok? <==> SerializeAll(fields, instance, values, []).Ok?
    ensures SerializeAll(fields, instance, values, out).Ok? ==>
              SerializeAll(fields, instance, values, out).value == out + SerializeAll(fields, instance, values, []).value
    decreases |fields|
  {
    if |fields| > 0 {
      var f, fs, vs := fields[0], fields[1..], values[1..];
      FieldAppends(f, instance, values[0], out);
      if SerializeField(f, instance, values[0], []).Ok? {
        var mine := SerializeField(f, instance, values[0], []).value;
        assert SerializeAll(fields, instance, values, out) == SerializeAll(fs, instance, vs, out + mine);
        assert SerializeAll(fields, instance, values, []) == SerializeAll(fs, instance, vs, mine);
        SerializeAppends(fs, instance, vs, out + mine);
        SerializeAppends(fs, instance, vs, mine);
        var tail := SerializeAll(fs, instance, vs, []);
        if tail.Ok? {
          Associative(out, mine, tail.value);
        }
      }
    }
  }

  /** Token streams concatenate associatively. */
  lemma Associative(a: seq<Token>, b: seq<Token>, c: seq<Token>)
    ensures (a + b) + c == a + (b + c)
  {
  }

  /** A record whose multi-choice values are list or tuple selections is
      written without error and read back field by field: each field gets
      what `Restored` says, and the stream after the record is left for
      whoever reads next. */
  lemma {:induction false} RecordRoundTrip<I>(fields: seq<Field<I>>, instance: I, values: seq<Value>,
                                              current: seq<Value>, rest: seq<Token>)
    requires |values| == |fields| && |current| == |fields|
    requires forall i :: 0 <= i < |fields| ==> Persistable(fields[i], values[i])
    ensures SerializeAll(fields, instance, values, []).Ok?
    ensures DeserializeAll(fields, instance, current, SerializeAll(fields, instance, values, []).value + rest)
         == Ok((RestoredAll(fields, instance, values, current), rest))
    decreases |fields|
  {
    if |fields| > 0 {
      var f, fs, vs, cs := fields[0], fields[1..], values[1..], current[1..];
      RecordRoundTrip(fs, instance, vs, cs, rest);
      var tail := SerializeAll(fs, instance, vs, []).value;
      FieldRoundTrip(f, instance, values[0], current[0], tail + rest);
      var mine := SerializeField(f, instance, values[0], []).value;
      SerializeAppends(fs, instance, vs, mine);
      assert SerializeAll(fields, instance, values, []) == SerializeAll(fs, instance, vs, mine);
      assert SerializeAll(fields, instance, values, []).value == mine + tail;
      var stream := SerializeAll(fields, instance, values, []).value + rest;
      Associative(mine, tail, rest);
      var first := DeserializeField(f, instance, current[0], stream);
      assert first == Ok((Restored(f, instance, values[0], current[0]), tail + rest));
      var others := DeserializeAll(fs, instance, cs, tail + rest);
      assert others == Ok((RestoredAll(fs, instance, vs, cs), rest));
      assert DeserializeAll(fields, instance, current, stream) == Ok(([first.value.0] + others.value.0, rest));
      assert RestoredAll(fields, instance, values, current)
          == [Restored(f, instance, values[0], current[0])] + RestoredAll(fs, instance, vs, cs);
    } else {
      assert SerializeAll(fields, instance, values, []).value + rest == rest;
    }
  }
}

=== FILE: streams.dfy ===
/** The writer/reader pair descriptors serialize through, as a stream of
    tokens: the writer appends, the reader consumes from the front. Only the
    sequence operations the modelled descriptors call are kept. */
module Streams {
  import opened Values

  datatype Token = Scalar(v: Value) | Sequence(items: seq<Value>)

  /** `writer.write_sequence(items)`. */
  function WriteSequence(out: seq<Token>, items: seq<Value>): (r: seq<Token>)
    ensures |r| == |out| + 1 && r[..|out|] == out && r[|out|] == Sequence(items)
  {
    out + [Sequence(items)]
  }

  /** `reader.read_sequence()`: the next token must be a sequence. */
  function ReadSequence(input: seq<Token>): (r: Result<(seq<Value>, seq<Token>)>)
    ensures r.Ok? <==> |input| > 0 && input[0].Sequence?
    ensures r.Ok? ==> Sequence(r.value.0) == input[0] && r.value.1 == input[1..]
  {
    if |input| > 0 && input[0].Sequence? then Ok((input[0].items, input[1..])) else Raise(ReadError)
  }

  /** Reading back what was written yields it, and leaves what followed. */
  lemma ReadWhatWasWritten(items: seq<Value>, rest: seq<Token>)
    ensures ReadSequence(WriteSequence([], items) + rest) == Ok((items, rest))
  {
  }
}

=== FILE: string_items.dfy ===
/** The string data items (`StringItem`, and `TextItem` and `FontFamilyItem`,
    which add nothing to it) and the path items built on them
    (`FileSaveItem`, `FileOpenItem`, `FilesOpenItem`, `DirectoryItem`).

    The file system is a snapshot handed to each check: a map from path to
    the kind of entry found there. `os.path.exists` is membership,
    `os.path.isfile` and `os.path.isdir` read the kind.
 */
module StringItems {
  import opened Values

  datatype EntryKind = RegularFile | Directory | OtherEntry

  datatype FileSystem = FileSystem(entries: map<string, EntryKind>)

  predicate Exists(fs: FileSystem, path: string) {
    path in fs.entries
  }

  predicate IsFile(fs: FileSystem, path: string) {
    path in fs.entries && fs.entries[path] == RegularFile
  }

  predicate IsDir(fs: FileSystem, path: string) {
    path in fs.entries && fs.entries[path] == Directory
  }

  /** `StringItem.check_value`: with `notempty` set, a falsy value fails; there
      is no type test, so `None`, `0` and `[]` fail too and `5` passes. */
  function CheckString(notempty: bool, v: Value): (ok: bool)
    ensures ok <==> !notempty || Truthy(v)
    ensures notempty && v.Str? ==> (ok <==> v.s != "")
  {
    var empty := !Truthy(v);
    if notempty && empty then false else true
  }

  /** `FileSaveItem.check_value`: a non-empty string. */
  function CheckFileSave(v: Value): (ok: bool)
    ensures ok <==> v.Str? && |v.s| > 0
  {
    if !v.Str? then false else |v.s| > 0
  }

  /** `FileOpenItem.check_value`: a string naming an existing regular file. */
  function CheckFileOpen(fs: FileSystem, v: Value): (ok: bool)
    ensures ok <==> v.Str? && IsFile(fs, v.s)
  {
    if !v.Str? then false else Exists(fs, v.s) && IsFile(fs, v.s)
  }

  /** `DirectoryItem.check_value`: a string naming an existing directory. */
  function CheckDirectory(fs: FileSystem, v: Value): (ok: bool)
    ensures ok <==> v.Str? && IsDir(fs, v.s)
  {
    if !v.Str? then false else Exists(fs, v.s) && IsDir(fs, v.s)
  }

  /** No value passes both the file-open and the directory check. */
  lemma OpenFileAndDirectoryExclusive(fs: FileSystem, v: Value)
    ensures !(CheckFileOpen(fs, v) && CheckDirectory(fs, v))
  {
  }

  /** One element of a `FilesOpenItem` value that names an existing file. */
  predicate IsFilePath(fs: FileSystem, x: Value) {
    x.Str? && IsFile(fs, x.s)
  }

  /** The loop in `FilesOpenItem.check_value` reaches, while every earlier
      element was an existing file, an element that is not a string, and
      `os.path.exists` raises on it. */
  predicate ReachesNonString(fs: FileSystem, xs: seq<Value>) {
    exists i :: 0 <= i < |xs| && !xs[i].Str? && forall j :: 0 <= j < i ==> IsFilePath(fs, xs[j])
  }

  /** The loop passes element `k` without raising when it is a string or
      when an earlier element already failed. */
  lemma NotReachedYet(fs: FileSystem, xs: seq<Value>, k: nat)
    requires k < |xs| && !ReachesNonString(fs, xs[..k])
    requires xs[k].Str? || exists j :: 0 <= j < k && !IsFilePath(fs, xs[j])
    ensures !ReachesNonString(fs, xs[..k + 1])
  {
    var ys := xs[..k + 1];
    forall i | 0 <= i < |ys| && !ys[i].Str? ensures exists j :: 0 <= j < i && !IsFilePath(fs, ys[j]) {
      if i < k {
        assert xs[..k][i] == ys[i];
        var j :| 0 <= j < i && !IsFilePath(fs, xs[..k][j]);
        assert ys[j] == xs[..k][j];
      } else {
        var j :| 0 <= j < k && !IsFilePath(fs, xs[j]);
        assert ys[j] == xs[j];
      }
    }
  }

  /** `FilesOpenItem.check_value`: `for path in value`, AND-ing existence and
      file-ness, short-circuited once false. There is no type test: a string
      value is walked character by character, a value that is not iterable
      raises `TypeError`, and the empty list passes. */
  method CheckFilesOpen(fs: FileSystem, value: Value) returns (r: Result<bool>)
    ensures Iterate(value).Raise? ==> r == Raise(TypeError)
    ensures Iterate(value).Ok? ==>
              var xs := Iterate(value).value;
              && (r == Ok(true) <==> forall i :: 0 <= i < |xs| ==> IsFilePath(fs, xs[i]))
              && (r.Raise? <==> ReachesNonString(fs, xs))
              && (r.Raise? ==> r.error == TypeError)
  {
    var paths :- Iterate(value);
    var allexist := true;
    var k := 0;
    while k < |paths|
      invariant 0 <= k <= |paths|
      invariant allexist <==> forall i :: 0 <= i < k ==> IsFilePath(fs, paths[i])
      invariant !ReachesNonString(fs, paths[..k])
    {
      if allexist {
        if !paths[k].Str? {
          assert ReachesNonString(fs, paths) by {
            assert !paths[k].Str? && forall j :: 0 <= j < k ==> IsFilePath(fs, paths[j]);
          }
          return Raise(TypeError);
        }
        allexist := allexist && Exists(fs, paths[k].s) && IsFile(fs, paths[k].s);
      }
      NotReachedYet(fs, paths, k);
      k := k + 1;
    }
    assert paths[..k] == paths;
    return Ok(allexist);
  }
}

=== FILE: text.dfy ===
/** Python `str` operations on `seq<char>` shared by the descriptors and the
    distribution helpers. */
module Text {

  /** `t` occurs in `s` starting at index `i`. */
  predicate OccursAt(t: string, s: string, i: int) {
    0 <= i <= |s| - |t| && s[i..i + |t|] == t
  }

  /** Python `t in s` for strings. */
  predicate Substring(t: string, s: string) {
    exists i :: 0 <= i <= |s| && OccursAt(t, s, i)
  }

  /** `s.startswith(p)`. */
  predicate StartsWith(s: string, p: string) {
    |p| <= |s| && s[..|p|] == p
  }

  /** `s.endswith(t)`. */
  predicate EndsWith(s: string, t: string) {
    |t| <= |s| && s[|s| - |t|..] == t
  }
}

=== FILE: values.dfy ===
/** The Python 2 objects the data item descriptors receive, compare and return.

    Only the shapes the descriptors distinguish are kept: `None`, `bool`,
    `int`, `long`, one string type (`str` and `unicode` are not told apart),
    tuples and lists. Exceptions the descriptors let escape become `Raise`.
 */
module Values {

  datatype Value =
    | NoneV
    | Bool(b: bool)
    | Int(i: int)        // a Python 2 `int`; `bool` is a subclass of it
    | Long(l: int)       // a Python 2 `long`; not an instance of `int`
    | Str(s: string)
    | Tuple(items: seq<Value>)
    | List(elems: seq<Value>)

  /** The exceptions the modelled code can raise. */
  datatype PyError = TypeError | ValueError | IndexError | AssertionError | ReadError

  datatype Option<+T> = None | Some(value: T)

  /** Either the value a Python call returns, or the exception it raises. */
  datatype Result<+T> = Ok(value: T) | Raise(error: PyError) {
    predicate IsFailure() {
      Raise?
    }

    function PropagateFailure<U>(): Result<U>
      requires Raise?
    {
      Raise(error)
    }

    function Extract(): T
      requires Ok?
    {
      value
    }
  }

  /** `isinstance(v, int)`: true for ints and for bools. */
  predicate IsInt(v: Value) {
    v.Int? || v.Bool?
  }

  /** A Python number: bool, int or long. */
  predicate IsNumber(v: Value) {
    v.Bool? || v.Int? || v.Long?
  }

  /** The mathematical value of a number (`True` is 1, `False` is 0). */
  function NumberOf(v: Value): int
    requires IsNumber(v)
  {
    match v
    case Bool(b) => if b then 1 else 0
    case Int(i) => i
    case Long(l) => l
  }

  /** Python truthiness (`if v:` / `not v`). */
  predicate Truthy(v: Value) {
    match v
    case NoneV => false
    case Bool(b) => b
    case Int(i) => i != 0
    case Long(l) => l != 0
    case Str(s) => |s| > 0
    case Tuple(xs) => |xs| > 0
    case List(xs) => |xs| > 0
  }

  /** Python `a == b`: numbers compare by value across bool, int and long;
      a tuple never equals a list; containers compare element by element. */
  predicate PyEq(a: Value, b: Value)
    decreases a
  {
    match a
    case NoneV => b.NoneV?
    case Str(s) => b.Str? && b.s == s
    case Tuple(xs) =>
      b.Tuple? && |xs| == |b.items| && forall i :: 0 <= i < |xs| ==> PyEq(xs[i], b.items[i])
    case List(xs) =>
      b.List? && |xs| == |b.elems| && forall i :: 0 <= i < |xs| ==> PyEq(xs[i], b.elems[i])
    case _ => IsNumber(b) && NumberOf(a) == NumberOf(b)
  }

  lemma {:induction false} PyEqReflexive(v: Value)
    ensures PyEq(v, v)
    decreases v
  {
    match v
    case Tuple(xs) =>
      forall i | 0 <= i < |xs| ensures PyEq(xs[i], xs[i]) {
        PyEqReflexive(xs[i]);
      }
    case List(xs) =>
      forall i | 0 <= i < |xs| ensures PyEq(xs[i], xs[i]) {
        PyEqReflexive(xs[i]);
      }
    case _ =>
  }

  /** Python `x in xs` for a list or tuple: some element equals `x`. */
  predicate OccursIn(x: Value, xs: seq<Value>) {
    exists j :: 0 <= j < |xs| && PyEq(x, xs[j])
  }

  /** `for x in v`: lists and tuples yield their elements, a string yields its
      one-character strings, anything else is not iterable. */
  function Iterate(v: Value): (r: Result<seq<Value>>)
    ensures r.Raise? <==> !(v.List? || v.Tuple? || v.Str?)
    ensures r.Raise? ==> r.error == TypeError
    ensures v.List? ==> r == Ok(v.elems)
    ensures v.Tuple? ==> r == Ok(v.items)
    ensures v.Str? ==>
              && r.Ok? && |r.value| == |v.s|
              && forall i :: 0 <= i < |v.s| ==> r.value[i] == Str([v.s[i]])
  {
    match v
    case List(xs) => Ok(xs)
    case Tuple(xs) => Ok(xs)
    case Str(s) => Ok(seq(|s|, i requires 0 <= i < |s| => Str([s[i]])))
    case _ => Raise(TypeError)
  }
}
